=== FILE: README.md ===
# GC-LDA decoding/encoding and correlation decoders (NiMARE), in Dafny

This project models the parts of NiMARE that turn brain images into text and
text back into images:

- `gclda_decode_map` decodes an unthresholded image with a trained GC-LDA
  topic model. It computes one weight per topic from the masked image,
  optionally multiplies in weighted topic priors, and projects the result
  through p(word | topic) into a term/weight table in vocabulary order.
- `gclda_encode` encodes text with the same kind of model:
  - a list of strings is joined with single spaces;
  - the longest n-gram length is taken from the space-separated surface forms
    of the underscore-joined vocabulary;
  - the per-term counts with a positive value select rows of
    p(topic | word), which are weighted by the counts and summed per topic;
  - priors are applied, and the topic weights are projected through
    p(voxel | topic) into one weight per voxel.
- `CorrelationDecoder` fits one meta-analytic map per feature. The estimator
  runs on the feature's valid studies, and for a pairwise estimator also on
  the remaining valid studies. The maps are stored row by row in a
  features x voxels matrix. `transform` correlates a query image with every
  row.
- `CorrelationDistributionDecoder` collects, per feature, the masked images of
  the valid studies that carry the feature's label. It drops features without
  images and reduces the feature list to the kept ones, in order. `transform`
  reports the mean and standard deviation of the Fisher z of the query's
  correlations with each feature's images. Each feature starts with a zero row.

Modules:

- `Wrappers`: `Option` and `Result`.
- `LinAlg`: vectors and matrices as sequences of reals, dot products, the
  transposed product `m.T @ w` as a weighted row sum, and matrix-vector
  products.
- `Seqs`: `np.where`-style positions, fancy indexing, and filtering by
  position.
- `Dicts`: a Python dict as an insertion-ordered sequence of pairs.
- `StudyIds`: Python string ordering, `sorted(set(..))`, and the feature and
  non-feature id lists.
- `Vocabulary`: `" ".join`, `str.split(" ")`, surface forms and `max_len`.
- `Gclda`: the model record and the prior step shared by both directions.
- `Continuous`: `continuous.py`.
- `Encode`: `encode.py`.

The two `_fit` methods and the distribution decoder's `transform` change
state step by step. They are methods of the classes `CorrelationDecoder` and
`CorrelationDistributionDecoder` and have loops with invariants.

- The loop of `CorrelationDecoder._fit` (`BuildMatrix`) is proved equal to
  the specification function `ReferenceMatrix`.
- The loop of `CorrelationDistributionDecoder._fit` (`CollectImages`) is
  proved equal to `Collect`. `Fit` then sets the feature list to `Retained`,
  the order-preserving filter by the dict's keys.
- The lemmas beside those functions state what the source promises about
  them.
- The distribution decoder's `transform` is proved directly against its own
  postcondition: one row per feature, holding the statistics of that
  feature's stored images, or zeros.

The GC-LDA pipelines are expression chains and are modelled as functions.

Shape errors that numpy would raise become `Err(ShapeMismatch)` or a failed
fit:

- a prior vector whose length is neither the number of topics nor 1;
- a meta-analytic map that neither has the first map's width nor length 1.

`max()` over an empty vocabulary becomes `Err(EmptyVocabulary)`.

## Model

| member | source | states |
|---|---|---|
| Continuous.DecodeTopicWeights | nimare/decode/continuous.py:96-97 | one weight per topic; entry t is the dot product of column t of p(topic given voxel) with the masked input values |
| LinAlg.WeightedRowSumIsTransposeProduct | nimare/decode/continuous.py:97 | the row-by-row weighted sum of a matrix equals, column by column, the transposed matrix times the weight vector |
| Gclda.ApplyPriors | nimare/decode/continuous.py:98-100 | without priors the weights are unchanged; with priors each entry t is multiplied by the weighted prior t (or the single prior, broadcast); any other prior length is a shape error; the length never changes |
| Gclda.ApplyPriorsKeepsZeros | nimare/decode/encode.py:103-105 | multiplying in priors keeps every zero topic weight at zero |
| LinAlg.MatVec | nimare/decode/continuous.py:106 | one entry per matrix row; entry w is the dot product of row w with the vector |
| Continuous.DecodeMap | nimare/decode/continuous.py:93-110 | a wrong-length input is a shape error; otherwise success exactly when the priors apply, and every failure is a shape error; topic weights are the prior-weighted decode weights; the table has one row per vocabulary term, in vocabulary order, whose weight is the dot product of p(word given topic) row w with the topic weights |
| StudyIds.InsertSorted | nimare/decode/continuous.py:192 | inserting an id into a strictly ascending list keeps it strictly ascending and adds exactly that id |
| StudyIds.SortedUniqueSorted | nimare/decode/continuous.py:192 | `sorted(set(..))` is strictly ascending in Python string order and holds exactly the input ids |
| StudyIds.CommonMembers | nimare/decode/continuous.py:192 | the intersection holds exactly the ids found in both lists |
| StudyIds.WithoutMembers | nimare/decode/continuous.py:200 | the set difference holds exactly the ids of the first list that are not in the second |
| StudyIds.StrictlySortedUnique | nimare/decode/continuous.py:192 | two strictly ascending lists with the same ids are equal, so `sorted(set(..))` has one possible result |
| StudyIds.FeatureIdsSorted | nimare/decode/continuous.py:187-192 | strictly ascending; holds exactly the ids that are both label-selected and valid input ids |
| StudyIds.FeatureIdsCanonical | nimare/decode/continuous.py:192 | the feature ids hold no repeated id, and any strictly ascending list of the label-selected valid ids equals them |
| StudyIds.NonfeatureIdsSorted | nimare/decode/continuous.py:200 | strictly ascending; holds exactly the valid input ids that are not feature ids |
| StudyIds.PairwiseSplit | nimare/decode/continuous.py:199-202 | feature ids and non-feature ids are both sorted, disjoint, and together exactly the valid input ids |
| Continuous.CorrelationDecoder.constructor | nimare/decode/continuous.py:146-164 | stores threshold, estimator and target image; nothing is fitted yet |
| Continuous.CorrelationDecoder.MetaAnalyze | nimare/decode/continuous.py:187-209 | one loop pass computes feature i's map: the estimator run on its feature ids, plus the non-feature ids exactly when the estimator is pairwise |
| Continuous.CorrelationDecoder.BuildMatrix | nimare/decode/continuous.py:185-213 | the loop allocates the matrix at the first map's width and fills it row by row; its result is exactly the reference matrix, and there is none when there is no feature, a map is missing or a map does not fit |
| Continuous.FitRow | nimare/decode/continuous.py:213 | a row assignment succeeds exactly when the map has the row width or length 1; the row then has that width and holds the map, or its single value repeated |
| Continuous.FeatureMapsAt | nimare/decode/continuous.py:186-209 | the k-th computed map is the k-th feature's map |
| Continuous.ReferenceRowsSucceed | nimare/decode/continuous.py:186-213 | the rows exist exactly when every feature's map exists and fits the width |
| Continuous.ReferenceRowsAt | nimare/decode/continuous.py:186-213 | when the rows exist there is one per feature, and row k is feature k's map fitted to the width |
| Continuous.ReferenceMatrixRows | nimare/decode/continuous.py:185-215 | fitting succeeds exactly when there is a feature and every map exists with the first map's width or length 1; then the matrix has one row per feature, in feature order, of the first map's width, and row k is feature k's map (or its value repeated) |
| Continuous.CorrelationDecoder.Fit | nimare/decode/continuous.py:183-215 | records the masker, features and valid ids; success exactly when the reference matrix exists, which is then stored, and otherwise the stored matrix is unchanged; a success leaves the decoder fitted |
| Continuous.CorrelationDecoder.Transform | nimare/decode/continuous.py:230-234 | one row per fitted feature, in fit order, holding the Pearson correlation of the masked query with that feature's row |
| Seqs.Positions | nimare/decode/continuous.py:299-301 | the positions are strictly ascending, in range, and exactly the positions whose element is selected |
| Seqs.KeepAtIsSelectAt | nimare/decode/continuous.py:302-304 | keeping the elements whose position is listed gives, for ascending in-range positions, exactly the elements at those positions in that order |
| Continuous.TestImagesSelected | nimare/decode/continuous.py:298-304 | with one image per id, the selected positions are ascending, are exactly the positions of valid ids that carry the label, and the test images are the images at those positions; a feature has test images exactly when some valid id carries its label |
| Continuous.CorrelationDistributionDecoder.SelectTestImages | nimare/decode/continuous.py:295-304 | one loop pass yields feature i's test images, and masking them gives feature i's array |
| Continuous.CorrelationDistributionDecoder.constructor | nimare/decode/continuous.py:262-271 | stores the frequency threshold; no masker, inputs, images or features are held yet, so nothing is fitted (`feature_group` and `features` feed the base class's feature selection, which is not part of this model) |
| Continuous.CorrelationDistributionDecoder.CollectImages | nimare/decode/continuous.py:292-312 | the loop stores each feature's masked test images under the feature and skips features without test images; the dict built is exactly the collected dict |
| Dicts.PutKeys | nimare/decode/continuous.py:311 | a new key is appended and a present key keeps its place |
| Dicts.PutGet | nimare/decode/continuous.py:311 | after storing, the key is present and maps to the new value |
| Dicts.PutGetOther | nimare/decode/continuous.py:311 | storing under one key leaves every other key present with its old value |
| Dicts.PutDistinct | nimare/decode/continuous.py:311 | storing under a key keeps the keys distinct |
| Continuous.CollectContents | nimare/decode/continuous.py:293-313 | the collected dict has distinct keys, each one a requested feature; a feature is a key exactly when its array is non-empty, and it then maps to that array |
| Continuous.CollectedImages | nimare/decode/continuous.py:293-313 | a feature is kept exactly when it has a test image, and it maps to its masked test images |
| Continuous.Retained | nimare/decode/continuous.py:315 | the reduced feature list holds exactly the requested features that are keys |
| Continuous.CollectKeysIn | nimare/decode/continuous.py:293-311 | every key of the collected dict is one of the requested features |
| Continuous.CollectOrder | nimare/decode/continuous.py:293-316 | for distinct features, the dict's iteration order is the order of the reduced feature list |
| Continuous.CollectRetained | nimare/decode/continuous.py:314-316 | after fit the keys are distinct, every key is a retained feature, and for distinct features the retained list equals the key list |
| Continuous.CorrelationDistributionDecoder.Fit | nimare/decode/continuous.py:291-316 | records masker and inputs; the stored images are the collected dict and the features are the order-preserving filter by its keys, equal to its key order for distinct features; the decoder is left fitted |
| Dicts.GetAt | nimare/decode/continuous.py:337 | iterating the items of a dict with distinct keys, each item's value is what the dict holds for its key |
| Continuous.CorrelationDistributionDecoder.Transform | nimare/decode/continuous.py:332-343 | one row per retained feature, in feature order; a feature with stored images gets the mean and standard deviation of the Fisher z of its correlations; any other row keeps its initial zeros |
| Continuous.FisherZ | nimare/decode/continuous.py:337-339 | one Fisher z per stored study map of the feature, in map order: the inverse hyperbolic tangent of the image's Pearson correlation with that map |
| Vocabulary.JoinText | nimare/decode/encode.py:85-86 | a string is used unchanged; an empty list gives "" and one element gives itself; for any non-empty list, splitting the text at spaces gives the split pieces of every element in order, which with JoinSplit fixes the text as the elements joined by single spaces; space-free elements come back as they are |
| Vocabulary.SplitJoinAll | nimare/decode/encode.py:86 | splitting the space-joined elements gives the split of each element, one after the other |
| Vocabulary.SplitSpace | nimare/decode/encode.py:86 | splitting two strings joined by one space gives the pieces of the first followed by the pieces of the second |
| Vocabulary.JoinSplit | nimare/decode/encode.py:91 | joining the pieces of `split(" ")` with single spaces gives back the string |
| Vocabulary.SplitLength | nimare/decode/encode.py:91 | `split(" ")` gives one more piece than the string has spaces |
| Vocabulary.SurfaceForm | nimare/decode/encode.py:90 | same length as the term; each character is the term's, except that an underscore becomes a space |
| Vocabulary.SurfaceVocabulary | nimare/decode/encode.py:90 | same length and order as the vocabulary, entry i being the surface form of term i |
| Vocabulary.TermLengthOfSurface | nimare/decode/encode.py:90-91 | a term's n-gram length is one more than the underscores and spaces in the underscore-joined term |
| Vocabulary.MaxOf | nimare/decode/encode.py:91 | Python's max: fails exactly on the empty list; otherwise one of the values, and no value exceeds it |
| Vocabulary.MaxLen | nimare/decode/encode.py:91 | fails exactly on an empty vocabulary; otherwise at least 1, no term is longer, and some term has that length |
| Encode.KeepIdx | nimare/decode/encode.py:94 | strictly ascending, in range, and exactly the positions with a positive count |
| Encode.WordCounts | nimare/decode/encode.py:89-93 | the vectorizer's counts for the joined text and the model vocabulary, one per term when the vectorizer yields one count per term; the n-gram bound passed is the longest surface form's word count, reached by some term and bounding every term |
| Encode.TextCounts | nimare/decode/encode.py:95 | one count per kept position; entry k is the count at the k-th kept position, and it is positive |
| Encode.ZeroCountsContributeNothing | nimare/decode/encode.py:100-102 | summing the count-weighted rows of the kept words equals summing over all words |
| Encode.TopicWeightsFromCounts | nimare/decode/encode.py:100-102 | one weight per topic; entry t is the count-weighted sum of p(t given word) over the kept words, which equals the same sum over the whole vocabulary |
| Encode.EncodeText | nimare/decode/encode.py:85-107 | an empty vocabulary is an error; otherwise success exactly when the priors apply; topic weights are the prior-weighted count sums; one voxel weight per voxel, entry v being row v of p(voxel given topic) times the topic weights |
| Encode.NoHitsZeroTopicWeights | nimare/decode/encode.py:94-102 | counts with no hit keep no word and give all-zero topic weights |
| LinAlg.MatVecZero | nimare/decode/encode.py:107 | projecting all-zero topic weights through p(voxel given topic) gives all-zero voxel weights |
| Encode.NoHitsEncodeToZero | nimare/decode/encode.py:94-107 | text with no vocabulary hit keeps no word, and encodes to all-zero topic weights and all-zero voxel weights |

## Left out

- Image loading, masking and unmasking are not modelled.
  - This covers `load_niimg`, `apply_mask`, `unmask` and writing `out_file`.
  - `gclda_decode_map` receives the masked values.
  - `gclda_encode` returns the voxel weights instead of an image.
  - The masker's `transform` of one image file is an uninterpreted function. `_safe_transform` applies it to each test image.
- `CountVectorizer` tokenisation is a foreign library. The per-term counts come from a function of the text, the underscore-joined vocabulary and `max_len`. The only assumption is that it returns one count per vocabulary term.
- `weight_priors` is defined in another module. It is an arbitrary function of the priors and the prior weight.
- The numerical routines are uninterpreted functions: `pearson`, `np.arctanh`, `np.mean` and `np.std`.
  - Floating-point rounding is not modelled. Values are mathematical reals.
  - The bound of a correlation to [-1, 1] is not stated, because Pearson correlation is opaque here.
- Meta-analysis and collection calls are given as functions: `dataset.get_studies_by_label`, `dataset.slice`, `meta_estimator.fit` and `get_map`. An estimator that raises is a `None` map.
- `inspect.getfullargspec` (reflection) is not modelled. A boolean `pairwise` on the estimator takes its place.
- The decoder base class is not part of this model. Fits take the prepared `features_` and `inputs_` as arguments. This covers `fit`, `_preprocess_input`, feature-group selection and the valid-input filter.
- Progress bars, logging, citation decorators, constructor type checking and the write into the class-level `_required_inputs` are not modelled.
- pandas frames are sequences of rows or (key, value) pairs. Index names and column labels are not modelled.
- Continuous.DecodeMap: with one topic, `np.squeeze` makes the topic weights a 0-d array. Any prior vector then fails to broadcast into it in place. The model treats one topic like any other count.
- Encode.EncodeText: with a one-term vocabulary, `np.squeeze` (encode.py:93) makes the counts a 0-d array. Indexing it with `keep_idx` at encode.py:95 raises an `IndexError`, whether or not the term occurs, so `gclda_encode` fails on every one-term vocabulary. The model does not raise there: it treats the counts as a 1-element vector and returns a result.
- Continuous.CorrelationDecoder.Transform and Continuous.CorrelationDistributionDecoder.Transform require a fitted decoder. Before a fit, Python raises an attribute error.
- Continuous.CorrelationDecoder.Fit: a fit that fails partway raises in Python. The model returns `false` and leaves the stored matrix as it was; masker and features are already updated, as in the source.
- Continuous.CorrelationDecoder.BuildMatrix: the source allocates the matrix with the first map's dtype (continuous.py:211). If that map is an integer array, later float maps are cast into it and truncated at continuous.py:213. Values here are reals, so the model stores every map unchanged.
- Default arguments are not modelled; every value is a parameter. This covers `frequency_threshold=0.001`, `target_image` (`"z_desc-specificity"` for `CorrelationDecoder`, `"z"` for `CorrelationDistributionDecoder`), the default `MKDAChi2` estimator, and `prior_weight=1` in `gclda_decode_map` and `gclda_encode`.

=== FILE: continuous.dfy ===
/**
  Image-to-text decoding (`gclda_decode_map`) and the two correlation
  decoders. Masking, the meta-analysis estimator, the study collection's
  label lookup and the numerical routines (Pearson correlation, arctanh,
  mean, standard deviation) are defined outside this model and enter as
  values and functions.
*/
module Continuous {
  import opened Wrappers
  import opened LinAlg
  import opened Seqs
  import opened Dicts
  import opened StudyIds
  import opened Gclda

  // ---------------------------------------------------------------------
  // gclda_decode_map

  datatype TermWeight = TermWeight(term: string, weight: real)

  /** The term table (index "Term", column "Weight") and the topic weights. */
  datatype Decoded = Decoded(table: seq<TermWeight>, topicWeights: Vector)

  /** `np.squeeze(np.dot(p_topic_g_voxel_.T, input_values[:, None]))`: one
      weight per topic; entry t sums p(t | voxel) times the voxel's value. */
  function DecodeTopicWeights(model: GcldaModel, inputValues: Vector): (tw: Vector)
    requires model.Valid() && |inputValues| == model.NumVoxels()
    ensures |tw| == model.nTopics
    ensures forall t :: 0 <= t < model.nTopics ==>
              tw[t] == Dot(Column(model.pTopicGVoxel, t), inputValues)
  {
    WeightedRowSumIsTransposeProduct(model.pTopicGVoxel, inputValues, model.nTopics);
    WeightedRowSum(model.pTopicGVoxel, inputValues, model.nTopics)
  }

  /** `gclda_decode_map` on the masked image values: topic weights (with
      priors applied when given), projected through p(word | topic) into one
      weight per vocabulary term, tabulated in vocabulary order. */
  function DecodeMap(model: GcldaModel, inputValues: Vector, topicPriors: Option<Vector>,
                     priorWeight: real, weightPriors: PriorWeighting): (r: Result<Decoded, GcldaError>)
    requires model.Valid()
    ensures |inputValues| != model.NumVoxels() ==> r == Err(ShapeMismatch)
    ensures |inputValues| == model.NumVoxels() ==>
              var weighted := ApplyPriors(DecodeTopicWeights(model, inputValues), topicPriors,
                                          priorWeight, weightPriors);
              && (r.Ok? <==> weighted.Ok?)
              && (r.Ok? ==> r.value.topicWeights == weighted.value)
    ensures r.Err? ==> r.error == ShapeMismatch
    ensures r.Ok? ==> |r.value.topicWeights| == model.nTopics
    ensures r.Ok? ==> |r.value.table| == |model.vocabulary|
    ensures r.Ok? ==> forall w :: 0 <= w < |model.vocabulary| ==>
              && r.value.table[w].term == model.vocabulary[w]
              && r.value.table[w].weight == Dot(model.pWordGTopic[w], r.value.topicWeights)
  {
    if |inputValues| != model.NumVoxels() then Err(ShapeMismatch)
    else
      var tw := DecodeTopicWeights(model, inputValues);
      match ApplyPriors(tw, topicPriors, priorWeight, weightPriors)
      case Err(e) => Err(e)
      case Ok(weighted) =>
        var wordWeights := MatVec(model.pWordGTopic, weighted);
        var table := seq(|model.vocabulary|, w requires 0 <= w < |model.vocabulary| =>
                           TermWeight(model.vocabulary[w], wordWeights[w]));
        Ok(Decoded(table, weighted))
  }

  // ---------------------------------------------------------------------
  // Collaborators of the correlation decoders

  type Feature = string

  /** An image file name. */
  type ImageFile = string

  /** The collection's masker: `masker.transform` takes an image file to its
      in-mask voxel values. */
  datatype Masker = Masker(transform: ImageFile -> Vector)

  /** The study collection: its masker and `get_studies_by_label([feature],
      label_threshold)`. */
  datatype Dataset = Dataset(masker: Masker, studiesByLabel: (Feature, real) -> seq<StudyId>)

  /** A meta-analysis estimator: whether its fit takes a second collection,
      and fit-then-`get_map(target_image, return_type="array")` on the
      collections restricted to the given ids; None when either call raises. */
  datatype MetaEstimator = MetaEstimator(
    pairwise: bool,
    fitMap: (seq<StudyId>, Option<seq<StudyId>>, string) -> Option<Vector>)

  /** Pearson correlation, the inverse hyperbolic tangent, mean and
      standard deviation, as the numerical library defines them. */
  datatype Numerics = Numerics(
    pearson: (Vector, Vector) -> real,
    arctanh: real -> real,
    mean: seq<real> -> real,
    std: seq<real> -> real)

  // ---------------------------------------------------------------------
  // CorrelationDecoder

  /** Everything one CorrelationDecoder fit depends on. */
  datatype CorrelationSetup = CorrelationSetup(
    dataset: Dataset,
    threshold: real,
    estimator: MetaEstimator,
    targetImage: string,
    inputIds: seq<StudyId>)

  /** The meta-analytic map of one feature: the estimator runs on the
      feature's valid studies, and for a pairwise estimator also on the
      remaining valid studies. */
  function FeatureMap(s: CorrelationSetup, f: Feature): Option<Vector> {
    var featureIds := FeatureIds(s.dataset.studiesByLabel(f, s.threshold), s.inputIds);
    if s.estimator.pairwise then
      s.estimator.fitMap(featureIds, Some(NonfeatureIds(s.inputIds, featureIds)), s.targetImage)
    else s.estimator.fitMap(featureIds, None, s.targetImage)
  }

  /** `images_[i, :] = feature_data` for a row of the given width: numpy
      copies a map of that width, broadcasts a map of length 1, and raises
      for any other length. */
  function FitRow(data: Vector, width: nat): (r: Option<Vector>)
    ensures r.Some? <==> |data| == width || |data| == 1
    ensures r.Some? ==> |r.value| == width
    ensures r.Some? && |data| == width ==> r.value == data
    ensures r.Some? ==> forall k :: 0 <= k < width ==> r.value[k] == data[if |data| == width then k else 0]
  {
    if |data| == width then Some(data)
    else if |data| == 1 then Some(seq(width, _ => data[0]))
    else None
  }

  /** The maps of the features fs, in order. */
  function FeatureMaps(s: CorrelationSetup, fs: seq<Feature>): (r: seq<Option<Vector>>)
    ensures |r| == |fs|
  {
    if |fs| == 0 then [] else FeatureMaps(s, fs[..|fs| - 1]) + [FeatureMap(s, fs[|fs| - 1])]
  }

  /** Entry k of FeatureMaps is feature k's map. */
  lemma {:induction false} FeatureMapsAt(s: CorrelationSetup, fs: seq<Feature>, k: nat)
    requires k < |fs|
    ensures FeatureMaps(s, fs)[k] == FeatureMap(s, fs[k])
  {
    var n := |fs| - 1;
    var prefix := FeatureMaps(s, fs[..n]);
    assert FeatureMaps(s, fs) == prefix + [FeatureMap(s, fs[n])];
    if k < n {
      FeatureMapsAt(s, fs[..n], k);
      assert fs[..n][k] == fs[k];
      assert FeatureMaps(s, fs)[k] == prefix[k];
    }
  }

  /** The rows built from the maps, in order, each fitted to the width;
      None as soon as one map is missing or does not fit. */
  function ReferenceRows(maps: seq<Option<Vector>>, width: nat): Option<seq<Vector>> {
    if |maps| == 0 then Some([])
    else match ReferenceRows(maps[..|maps| - 1], width)
      case None => None
      case Some(rows) =>
        match maps[|maps| - 1]
        case None => None
        case Some(data) =>
          match FitRow(data, width)
          case None => None
          case Some(row) => Some(rows + [row])
  }

  /** The rows exist exactly when every map exists and fits the width. */
  lemma {:induction false} ReferenceRowsSucceed(maps: seq<Option<Vector>>, width: nat)
    ensures ReferenceRows(maps, width).Some? <==>
              forall k :: 0 <= k < |maps| ==> maps[k].Some? && FitRow(maps[k].value, width).Some?
  {
    if |maps| > 0 {
      var n := |maps| - 1;
      ReferenceRowsSucceed(maps[..n], width);
      assert forall k :: 0 <= k < n ==> maps[..n][k] == maps[k];
    }
  }

  /** There is one row per map, row k being map k fitted to the width. */
  lemma {:induction false} ReferenceRowsAt(maps: seq<Option<Vector>>, width: nat)
    requires ReferenceRows(maps, width).Some?
    ensures |ReferenceRows(maps, width).value| == |maps|
    ensures forall k :: 0 <= k < |maps| ==>
              maps[k].Some? && Some(ReferenceRows(maps, width).value[k]) == FitRow(maps[k].value, width)
  {
    if |maps| > 0 {
      var n := |maps| - 1;
      ReferenceRowsAt(maps[..n], width);
      assert forall k :: 0 <= k < n ==> maps[..n][k] == maps[k];
    }
  }

  /** Fitting one more map extends the rows by that map's row. */
  lemma ReferenceRowsExtend(maps: seq<Option<Vector>>, width: nat, i: nat, prev: seq<Vector>, row: Vector)
    requires i < |maps| && ReferenceRows(maps[..i], width) == Some(prev)
    requires maps[i].Some? && FitRow(maps[i].value, width) == Some(row)
    ensures ReferenceRows(maps[..i + 1], width) == Some(prev + [row])
  {
    assert maps[..i + 1][..i] == maps[..i];
  }

  /** One missing or misfitting map makes the rows fail. */
  lemma ReferenceRowsFail(maps: seq<Option<Vector>>, width: nat, i: nat)
    requires i < |maps| && (maps[i].None? || FitRow(maps[i].value, width).None?)
    ensures ReferenceRows(maps, width).None?
  {
    ReferenceRowsSucceed(maps, width);
  }

  /** The features x voxels reference matrix of `CorrelationDecoder._fit`:
      the width is that of the first feature's map; with no feature the
      matrix is never allocated, which is a failure. */
  function ReferenceMatrix(s: CorrelationSetup, fs: seq<Feature>): (r: Option<seq<Vector>>)
    ensures |fs| == 0 ==> r.None?
  {
    if |fs| == 0 then None
    else
      var maps := FeatureMaps(s, fs);
      match maps[0]
      case None => None
      case Some(first) => ReferenceRows(maps, |first|)
  }

  /** After a successful fit the matrix has one row per feature, in feature
      order, all of the first map's width; row k is feature k's map (or its
      single value repeated). Fitting succeeds exactly when there is a
      feature and every feature's map exists and has that width or length 1. */
  lemma ReferenceMatrixRows(s: CorrelationSetup, fs: seq<Feature>)
    ensures ReferenceMatrix(s, fs).Some? <==>
              && |fs| > 0
              && FeatureMap(s, fs[0]).Some?
              && forall k :: 0 <= k < |fs| ==>
                   FeatureMap(s, fs[k]).Some?
                   && (|FeatureMap(s, fs[k]).value| == |FeatureMap(s, fs[0]).value|
                       || |FeatureMap(s, fs[k]).value| == 1)
    ensures ReferenceMatrix(s, fs).Some? ==>
              var rows := ReferenceMatrix(s, fs).value;
              var width := |FeatureMap(s, fs[0]).value|;
              && |rows| == |fs|
              && forall k :: 0 <= k < |fs| ==>
                   var data := FeatureMap(s, fs[k]).value;
                   && |rows[k]| == width
                   && (|data| == width ==> rows[k] == data)
                   && (forall v :: 0 <= v < width ==> rows[k][v] == data[if |data| == width then v else 0])
  {
    var maps := FeatureMaps(s, fs);
    forall k | 0 <= k < |fs| ensures maps[k] == FeatureMap(s, fs[k]) {
      FeatureMapsAt(s, fs, k);
    }
    if |fs| > 0 && FeatureMap(s, fs[0]).Some? {
      var width := |FeatureMap(s, fs[0]).value|;
      ReferenceRowsSucceed(maps, width);
      if ReferenceRows(maps, width).Some? {
        ReferenceRowsAt(maps, width);
      }
    }
  }

  datatype Correlation = Correlation(feature: Feature, r: real)

  /** Decodes an image by correlating it with one meta-analytic map per feature. */
  class CorrelationDecoder {
    const frequencyThreshold: real
    const metaEstimator: MetaEstimator
    const targetImage: string

    var masker: Option<Masker>
    var features: seq<Feature>       // features_
    var inputIds: seq<StudyId>       // inputs_["id"]
    var images: Option<seq<Vector>>  // images_; None while never bound

    ghost predicate Fitted()
      reads this
    {
      masker.Some? && images.Some? && |images.value| == |features|
    }

    constructor (frequencyThreshold: real, metaEstimator: MetaEstimator, targetImage: string)
      ensures this.frequencyThreshold == frequencyThreshold
      ensures this.metaEstimator == metaEstimator && this.targetImage == targetImage
      ensures masker == None && images == None && features == [] && inputIds == []
    {
      this.frequencyThreshold := frequencyThreshold;
      this.metaEstimator := metaEstimator;
      this.targetImage := targetImage;
      masker := None;
      features := [];
      inputIds := [];
      images := None;
    }

    /** One pass of `_fit`'s loop body before the row is stored: feature
        i's valid studies, their complement for a pairwise estimator, and
        the estimator's map, which is entry i of the feature maps. */
    method MetaAnalyze(dataset: Dataset, features: seq<Feature>, i: nat, inputIds: seq<StudyId>)
      returns (data: Option<Vector>)
      requires i < |features|
      ensures data == FeatureMaps(
                CorrelationSetup(dataset, frequencyThreshold, metaEstimator, targetImage, inputIds), features)[i]
    {
      var feature := features[i];
      var featureIds := FeatureIds(dataset.studiesByLabel(feature, frequencyThreshold), inputIds);
      if metaEstimator.pairwise {
        var nonfeatureIds := NonfeatureIds(inputIds, featureIds);
        data := metaEstimator.fitMap(featureIds, Some(nonfeatureIds), targetImage);
      } else {
        data := metaEstimator.fitMap(featureIds, None, targetImage);
      }
      FeatureMapsAt(CorrelationSetup(dataset, frequencyThreshold, metaEstimator, targetImage, inputIds), features, i);
    }

    /** The loop of `_fit`: row i of the matrix is feature i's map, the
        matrix being allocated with the width of the first map. None when
        there is no feature, an estimator fails or a map does not fit. */
    method BuildMatrix(dataset: Dataset, features: seq<Feature>, inputIds: seq<StudyId>)
      returns (matrix: Option<seq<Vector>>)
      ensures matrix == ReferenceMatrix(
                CorrelationSetup(dataset, frequencyThreshold, metaEstimator, targetImage, inputIds), features)
    {
      ghost var setup := CorrelationSetup(dataset, frequencyThreshold, metaEstimator, targetImage, inputIds);
      ghost var maps := FeatureMaps(setup, features);
      var n := |features|;
      var rows: seq<Vector> := [];
      var width: nat := 0;
      for i := 0 to n
        invariant i > 0 ==> maps[0].Some? && width == |maps[0].value|
        invariant i > 0 ==> |rows| == n
        invariant i > 0 ==> ReferenceRows(maps[..i], width) == Some(rows[..i])
        invariant i > 0 ==> forall k :: i <= k < n ==> rows[k] == Zeros(width)
      {
        var data := MetaAnalyze(dataset, features, i, inputIds);
        if data.None? {
          if i > 0 {
            ReferenceRowsFail(maps, width, i);
          }
          return None;
        }
        if i == 0 {
          width := |data.value|;
          rows := seq(n, _ => Zeros(width));
        }
        var row := FitRow(data.value, width);
        if row.None? {
          ReferenceRowsFail(maps, width, i);
          return None;
        }
        ghost var prev := rows[..i];
        ReferenceRowsExtend(maps, width, i, prev, row.value);
        rows := rows[i := row.value];
        assert rows[..i + 1] == prev + [row.value];
      }
      if n == 0 {
        return None;
      }
      assert maps[..n] == maps && rows[..n] == rows;
      return Some(rows);
    }

    /** `fit`: the features and valid input ids prepared by the decoder
        base class are recorded, then `_fit` builds the reference matrix row
        by row. On failure (no feature, an estimator error, a map that does
        not fit the matrix) `images_` keeps its previous value. */
    method Fit(dataset: Dataset, features: seq<Feature>, inputIds: seq<StudyId>) returns (ok: bool)
      modifies this
      ensures this.features == features && this.inputIds == inputIds
      ensures masker == Some(dataset.masker)
      ensures var spec := ReferenceMatrix(
                CorrelationSetup(dataset, frequencyThreshold, metaEstimator, targetImage, inputIds), features);
              && ok == spec.Some?
              && images == (if ok then spec else old(images))
      ensures ok ==> Fitted()
    {
      this.features := features;
      this.inputIds := inputIds;
      masker := Some(dataset.masker);
      var matrix := BuildMatrix(dataset, features, inputIds);
      ReferenceMatrixRows(
        CorrelationSetup(dataset, frequencyThreshold, metaEstimator, targetImage, inputIds), features);
      ok := matrix.Some?;
      if ok {
        images := matrix;
      }
    }

    /** `transform`: one row per fitted feature, in fit order, holding the
        correlation of the masked query image with that feature's map. */
    function Transform(img: ImageFile, numerics: Numerics): (out: seq<Correlation>)
      reads this
      requires Fitted()
      ensures |out| == |features|
      ensures forall i :: 0 <= i < |out| ==>
                && out[i].feature == features[i]
                && out[i].r == numerics.pearson(masker.value.transform(img), images.value[i])
    {
      var imgVec := masker.value.transform(img);
      var fs, rows := features, images.value;
      seq(|fs|, i requires 0 <= i < |fs| => Correlation(fs[i], numerics.pearson(imgVec, rows[i])))
    }
  }

  // ---------------------------------------------------------------------
  // CorrelationDistributionDecoder

  /** Everything one CorrelationDistributionDecoder fit depends on: the
      study collection, the label threshold, and the valid input ids and
      their images (`inputs_["id"]`, `inputs_["images"]`). */
  datatype DistributionSetup = DistributionSetup(
    dataset: Dataset,
    threshold: real,
    inputIds: seq<StudyId>,
    inputImages: seq<ImageFile>)

  /** `selected_id_idx`: the positions of the input ids that are among the
      feature's selected ids. */
  function SelectedIdIdx(s: DistributionSetup, f: Feature): seq<nat> {
    var selected := FeatureIds(s.dataset.studiesByLabel(f, s.threshold), s.inputIds);
    Positions(s.inputIds, id => id in selected)
  }

  /** `test_imgs`: the input images whose position is selected. */
  function TestImages(s: DistributionSetup, f: Feature): seq<ImageFile> {
    KeepAt(s.inputImages, SelectedIdIdx(s, f))
  }

  /** With one image per input id, a feature's test images are the images of
      exactly those input studies that carry the label, in input order. */
  lemma TestImagesSelected(s: DistributionSetup, f: Feature)
    requires |s.inputImages| == |s.inputIds|
    ensures var idx := SelectedIdIdx(s, f);
            && StrictlyIncreasing(idx) && InRange(idx, |s.inputIds|)
            && (forall i :: 0 <= i < |s.inputIds| ==>
                  (i in idx <==> s.inputIds[i] in s.dataset.studiesByLabel(f, s.threshold)))
            && TestImages(s, f) == SelectAt(s.inputImages, idx)
    ensures |TestImages(s, f)| > 0 <==>
              exists i :: 0 <= i < |s.inputIds| && s.inputIds[i] in s.dataset.studiesByLabel(f, s.threshold)
  {
    var idx := SelectedIdIdx(s, f);
    var selected := FeatureIds(s.dataset.studiesByLabel(f, s.threshold), s.inputIds);
    FeatureIdsSorted(s.dataset.studiesByLabel(f, s.threshold), s.inputIds);
    assert idx == Positions(s.inputIds, id => id in selected);
    forall i | 0 <= i < |s.inputIds|
      ensures i in idx <==> s.inputIds[i] in s.dataset.studiesByLabel(f, s.threshold)
    {
      if i in idx {
        var k :| 0 <= k < |idx| && idx[k] == i;
        assert s.inputIds[idx[k]] in selected;
      }
    }
    KeepAtIsSelectAt(s.inputImages, idx);
    if |TestImages(s, f)| > 0 {
      assert s.inputIds[idx[0]] in s.dataset.studiesByLabel(f, s.threshold);
    }
  }

  /** `_safe_transform(test_imgs, masker)`: one masked row per image. */
  function MaskImages(masker: Masker, imgs: seq<ImageFile>): (arr: seq<Vector>)
    ensures |arr| == |imgs|
  {
    seq(|imgs|, k requires 0 <= k < |imgs| => masker.transform(imgs[k]))
  }

  /** `feature_arr`: the masked test images of one feature. */
  function FeatureArray(s: DistributionSetup, f: Feature): seq<Vector> {
    MaskImages(s.dataset.masker, TestImages(s, f))
  }

  /** The feature arrays of the features fs, in order. */
  function FeatureArrays(s: DistributionSetup, fs: seq<Feature>): (r: seq<seq<Vector>>)
    ensures |r| == |fs|
  {
    Mapped(fs, f => FeatureArray(s, f))
  }

  /** Entry k of FeatureArrays is feature k's array. */
  lemma FeatureArraysAt(s: DistributionSetup, fs: seq<Feature>, k: nat)
    requires k < |fs|
    ensures FeatureArrays(s, fs)[k] == FeatureArray(s, fs[k])
  {
    MappedAt(fs, f => FeatureArray(s, f), k);
  }

  /** Arrays that agree wherever the features agree. */
  predicate Consistent(fs: seq<Feature>, arrs: seq<seq<Vector>>)
    requires |arrs| == |fs|
  {
    forall i, j :: 0 <= i < |fs| && 0 <= j < |fs| && fs[i] == fs[j] ==> arrs[i] == arrs[j]
  }

  /** The feature arrays depend on the feature alone. */
  lemma FeatureArraysConsistent(s: DistributionSetup, fs: seq<Feature>)
    ensures Consistent(fs, FeatureArrays(s, fs))
  {
    forall i, j | 0 <= i < |fs| && 0 <= j < |fs| && fs[i] == fs[j]
      ensures FeatureArrays(s, fs)[i] == FeatureArrays(s, fs)[j]
    {
      FeatureArraysAt(s, fs, i);
      FeatureArraysAt(s, fs, j);
    }
  }

  /** `images_`: feature k's array is stored under feature k when it is not
      empty; features without test images are skipped. */
  function Collect(fs: seq<Feature>, arrs: seq<seq<Vector>>): Dict<Feature, seq<Vector>>
    requires |arrs| == |fs|
  {
    if |fs| == 0 then []
    else
      var n := |fs| - 1;
      var d := Collect(fs[..n], arrs[..n]);
      if |arrs[n]| > 0 then Put(d, fs[n], arrs[n]) else d
  }

  /** What CollectContents states about Collect(fs, arrs). */
  ghost predicate CollectedFrom(d: Dict<Feature, seq<Vector>>, fs: seq<Feature>, arrs: seq<seq<Vector>>)
    requires |arrs| == |fs|
  {
    && Distinct(Keys(d))
    && (forall f :: f in Keys(d) ==> f in fs)
    && (forall k :: 0 <= k < |fs| ==> (fs[k] in Keys(d) <==> |arrs[k]| > 0))
    && (forall k :: 0 <= k < |fs| && |arrs[k]| > 0 ==> fs[k] in Keys(d) && Get(d, fs[k]) == arrs[k])
  }

  /** Storing a non-empty array for the next feature: the keys. */
  lemma CollectStoreKeys(d: Dict<Feature, seq<Vector>>, fs: seq<Feature>, arrs: seq<seq<Vector>>)
    requires |arrs| == |fs| > 0 && Consistent(fs, arrs)
    requires CollectedFrom(d, fs[..|fs| - 1], arrs[..|fs| - 1]) && |arrs[|fs| - 1]| > 0
    ensures var r := Put(d, fs[|fs| - 1], arrs[|fs| - 1]);
            && Distinct(Keys(r))
            && (forall f :: f in Keys(r) ==> f in fs)
            && (forall k :: 0 <= k < |fs| ==> (fs[k] in Keys(r) <==> |arrs[k]| > 0))
  {
    var n := |fs| - 1;
    var fs', arrs' := fs[..n], arrs[..n];
    var r := Put(d, fs[n], arrs[n]);
    PutDistinct(d, fs[n], arrs[n]);
    PutKeys(d, fs[n], arrs[n]);
    assert forall f :: f in Keys(r) <==> f in Keys(d) || f == fs[n];
    forall f | f in Keys(r) ensures f in fs {
      if f != fs[n] {
        var j :| 0 <= j < n && fs'[j] == f;
        assert fs[j] == f;
      }
    }
    forall k | 0 <= k < |fs| ensures fs[k] in Keys(r) <==> |arrs[k]| > 0 {
      if fs[k] == fs[n] {
        assert arrs[k] == arrs[n];
      } else {
        assert fs'[k] == fs[k] && arrs'[k] == arrs[k];
      }
    }
  }

  /** Storing a non-empty array for the next feature: the values. */
  lemma CollectStoreValues(d: Dict<Feature, seq<Vector>>, fs: seq<Feature>, arrs: seq<seq<Vector>>)
    requires |arrs| == |fs| > 0 && Consistent(fs, arrs)
    requires CollectedFrom(d, fs[..|fs| - 1], arrs[..|fs| - 1]) && |arrs[|fs| - 1]| > 0
    ensures var r := Put(d, fs[|fs| - 1], arrs[|fs| - 1]);
            forall k :: 0 <= k < |fs| && |arrs[k]| > 0 ==> fs[k] in Keys(r) && Get(r, fs[k]) == arrs[k]
  {
    var n := |fs| - 1;
    var fs', arrs' := fs[..n], arrs[..n];
    var r := Put(d, fs[n], arrs[n]);
    forall k | 0 <= k < |fs| && |arrs[k]| > 0 ensures fs[k] in Keys(r) && Get(r, fs[k]) == arrs[k] {
      if fs[k] == fs[n] {
        assert arrs[k] == arrs[n];
        PutGet(d, fs[n], arrs[n]);
      } else {
        assert fs'[k] == fs[k] && arrs'[k] == arrs[k];
        PutGetOther(d, fs[n], arrs[n], fs[k]);
      }
    }
  }

  /** Storing a non-empty array for the next feature. */
  lemma CollectStore(d: Dict<Feature, seq<Vector>>, fs: seq<Feature>, arrs: seq<seq<Vector>>)
    requires |arrs| == |fs| > 0 && Consistent(fs, arrs)
    requires CollectedFrom(d, fs[..|fs| - 1], arrs[..|fs| - 1]) && |arrs[|fs| - 1]| > 0
    ensures CollectedFrom(Put(d, fs[|fs| - 1], arrs[|fs| - 1]), fs, arrs)
  {
    CollectStoreKeys(d, fs, arrs);
    CollectStoreValues(d, fs, arrs);
  }

  /** Skipping the next feature, whose array is empty. */
  lemma CollectSkip(d: Dict<Feature, seq<Vector>>, fs: seq<Feature>, arrs: seq<seq<Vector>>)
    requires |arrs| == |fs| > 0 && Consistent(fs, arrs)
    requires CollectedFrom(d, fs[..|fs| - 1], arrs[..|fs| - 1]) && |arrs[|fs| - 1]| == 0
    ensures CollectedFrom(d, fs, arrs)
  {
    var n := |fs| - 1;
    forall k | 0 <= k < n ensures fs[..n][k] == fs[k] && arrs[..n][k] == arrs[k] {
    }
  }

  /** The collected dict has distinct keys, each a feature; a feature is a
      key exactly when its array is not empty, and then it maps to that
      array. */
  lemma {:induction false} CollectContents(fs: seq<Feature>, arrs: seq<seq<Vector>>)
    requires |arrs| == |fs| && Consistent(fs, arrs)
    ensures CollectedFrom(Collect(fs, arrs), fs, arrs)
  {
    if |fs| > 0 {
      var n := |fs| - 1;
      assert Consistent(fs[..n], arrs[..n]);
      CollectContents(fs[..n], arrs[..n]);
      if |arrs[n]| > 0 {
        CollectStore(Collect(fs[..n], arrs[..n]), fs, arrs);
      } else {
        CollectSkip(Collect(fs[..n], arrs[..n]), fs, arrs);
      }
    }
  }

  /** The images of a fit: a feature is a key exactly when it has at least
      one test image, and then it maps to its masked test images. */
  lemma CollectedImages(s: DistributionSetup, fs: seq<Feature>)
    ensures var d := Collect(fs, FeatureArrays(s, fs));
            && Distinct(Keys(d))
            && (forall f :: f in Keys(d) ==> f in fs)
            && (forall f :: f in fs ==> (f in Keys(d) <==> |TestImages(s, f)| > 0))
            && (forall f :: f in Keys(d) ==> Get(d, f) == FeatureArray(s, f))
  {
    var arrs := FeatureArrays(s, fs);
    FeatureArraysConsistent(s, fs);
    CollectContents(fs, arrs);
    forall k | 0 <= k < |fs| ensures arrs[k] == FeatureArray(s, fs[k]) {
      FeatureArraysAt(s, fs, k);
    }
  }

  /** `[f for f in features_ if f in images_.keys()]`. */
  function Retained(fs: seq<Feature>, keys: seq<Feature>): (r: seq<Feature>)
    ensures forall f :: f in r <==> f in fs && f in keys
  {
    if |fs| == 0 then []
    else Retained(fs[..|fs| - 1], keys) + (if fs[|fs| - 1] in keys then [fs[|fs| - 1]] else [])
  }

  /** Retained only looks at whether the features of fs are keys. */
  lemma {:induction false} RetainedCongruent(fs: seq<Feature>, keys: seq<Feature>, keys': seq<Feature>)
    requires forall f :: f in fs ==> (f in keys <==> f in keys')
    ensures Retained(fs, keys) == Retained(fs, keys')
  {
    if |fs| > 0 {
      RetainedCongruent(fs[..|fs| - 1], keys, keys');
    }
  }

  /** One step of Collect on the keys: the next feature is appended when
      its array is not empty. */
  lemma CollectKeysSnoc(fs: seq<Feature>, arrs: seq<seq<Vector>>)
    requires |arrs| == |fs| > 0
    ensures var n := |fs| - 1;
            var keys := Keys(Collect(fs[..n], arrs[..n]));
            Keys(Collect(fs, arrs))
              == if |arrs[n]| > 0 && fs[n] !in keys then keys + [fs[n]] else keys
  {
    var n := |fs| - 1;
    PutKeys(Collect(fs[..n], arrs[..n]), fs[n], arrs[n]);
  }

  /** Every key of the collected dict is one of the features. */
  lemma {:induction false} CollectKeysIn(fs: seq<Feature>, arrs: seq<seq<Vector>>)
    requires |arrs| == |fs|
    ensures forall f :: f in Keys(Collect(fs, arrs)) ==> f in fs
  {
    if |fs| > 0 {
      var n := |fs| - 1;
      var keys := Keys(Collect(fs[..n], arrs[..n]));
      CollectKeysIn(fs[..n], arrs[..n]);
      CollectKeysSnoc(fs, arrs);
      forall f | f in Keys(Collect(fs, arrs)) ensures f in fs {
        if f in keys {
          var j :| 0 <= j < n && fs[..n][j] == f;
          assert fs[j] == f;
        } else {
          assert f == fs[n];
        }
      }
    }
  }

  /** For distinct features, the dict's iteration order is the order of the
      reduced feature list. */
  lemma {:induction false} CollectOrder(fs: seq<Feature>, arrs: seq<seq<Vector>>)
    requires |arrs| == |fs| && Distinct(fs)
    ensures Keys(Collect(fs, arrs)) == Retained(fs, Keys(Collect(fs, arrs)))
  {
    if |fs| > 0 {
      var n := |fs| - 1;
      var keys := Keys(Collect(fs[..n], arrs[..n]));
      var keys' := Keys(Collect(fs, arrs));
      assert Distinct(fs[..n]);
      CollectOrder(fs[..n], arrs[..n]);
      CollectKeysIn(fs[..n], arrs[..n]);
      assert fs[n] !in fs[..n] by {
        assert forall j :: 0 <= j < n ==> fs[..n][j] == fs[j] != fs[n];
      }
      CollectKeysSnoc(fs, arrs);
      assert forall f :: f in fs[..n] ==> (f in keys <==> f in keys');
      RetainedCongruent(fs[..n], keys, keys');
      assert Retained(fs, keys') == Retained(fs[..n], keys') + (if fs[n] in keys' then [fs[n]] else []);
    }
  }

  /** What the fit keeps: distinct keys, every key a retained feature, and,
      for distinct features, the retained features in key order. */
  lemma CollectRetained(fs: seq<Feature>, arrs: seq<seq<Vector>>)
    requires |arrs| == |fs| && Consistent(fs, arrs)
    ensures var d := Collect(fs, arrs);
            && Distinct(Keys(d))
            && (forall f :: f in Keys(d) ==> f in Retained(fs, Keys(d)))
            && (Distinct(fs) ==> Retained(fs, Keys(d)) == Keys(d))
  {
    CollectContents(fs, arrs);
    if Distinct(fs) {
      CollectOrder(fs, arrs);
    }
  }

  datatype FeatureStats = FeatureStats(feature: Feature, mean: real, std: real)

  /** `np.arctanh(pearson(img_vec, feature_arr))`: the Fisher z of the
      image's correlation with each study map. */
  function FisherZ(imgVec: Vector, arr: seq<Vector>, numerics: Numerics): (z: seq<real>)
    ensures |z| == |arr|
    ensures forall k :: 0 <= k < |arr| ==> z[k] == numerics.arctanh(numerics.pearson(imgVec, arr[k]))
  {
    seq(|arr|, k requires 0 <= k < |arr| => numerics.arctanh(numerics.pearson(imgVec, arr[k])))
  }

  /** Decodes an image by the distribution of its correlations with the
      study-wise images of each feature. */
  class CorrelationDistributionDecoder {
    const frequencyThreshold: real

    var masker: Option<Masker>
    var features: seq<Feature>              // features_
    var inputIds: seq<StudyId>              // inputs_["id"]
    var inputImages: seq<ImageFile>         // inputs_["images"]
    var images: Dict<Feature, seq<Vector>>  // images_

    /** After fit: a masker, a dict (distinct keys) whose every key is a
        remaining feature. */
    ghost predicate Fitted()
      reads this
    {
      masker.Some? && Distinct(Keys(images)) && forall f :: f in Keys(images) ==> f in features
    }

    constructor (frequencyThreshold: real)
      ensures this.frequencyThreshold == frequencyThreshold
      ensures masker == None && features == [] && inputIds == [] && inputImages == [] && images == []
    {
      this.frequencyThreshold := frequencyThreshold;
      masker := None;
      features := [];
      inputIds := [];
      inputImages := [];
      images := [];
    }

    /** One pass of `_fit`'s loop body before the images are stored:
        feature i's selected ids, their positions among the input ids, and
        the images at those positions, which mask to entry i of the
        feature arrays. */
    method SelectTestImages(dataset: Dataset, features: seq<Feature>, i: nat) returns (testImgs: seq<ImageFile>)
      requires i < |features|
      ensures testImgs == TestImages(
                DistributionSetup(dataset, frequencyThreshold, inputIds, inputImages), features[i])
      ensures MaskImages(dataset.masker, testImgs) == FeatureArrays(
                DistributionSetup(dataset, frequencyThreshold, inputIds, inputImages), features)[i]
    {
      var feature := features[i];
      var selectedIds := FeatureIds(dataset.studiesByLabel(feature, frequencyThreshold), inputIds);
      var selectedIdIdx := Positions(inputIds, id => id in selectedIds);
      testImgs := KeepAt(inputImages, selectedIdIdx);
      FeatureArraysAt(DistributionSetup(dataset, frequencyThreshold, inputIds, inputImages), features, i);
    }

    /** The loop of `_fit`: every feature's masked test images are stored
        under the feature, and features without test images are skipped. */
    method CollectImages(dataset: Dataset, features: seq<Feature>) returns (dict: Dict<Feature, seq<Vector>>)
      ensures dict == Collect(features, FeatureArrays(
                DistributionSetup(dataset, frequencyThreshold, inputIds, inputImages), features))
    {
      ghost var arrs := FeatureArrays(DistributionSetup(dataset, frequencyThreshold, inputIds, inputImages), features);
      dict := [];
      for i := 0 to |features|
        invariant dict == Collect(features[..i], arrs[..i])
      {
        var testImgs := SelectTestImages(dataset, features, i);
        assert features[..i + 1][..i] == features[..i] && arrs[..i + 1][..i] == arrs[..i];
        if |testImgs| > 0 {
          var featureArr := MaskImages(dataset.masker, testImgs);
          dict := Put(dict, features[i], featureArr);
        }
      }
      assert features[..|features|] == features && arrs[..|features|] == arrs;
    }

    /** `fit`: the features and valid inputs prepared by the decoder base
        class are recorded; `_fit` stores every feature's masked test images
        under the feature, skips features without test images, and reduces
        the feature list to the stored ones. */
    method Fit(dataset: Dataset, features: seq<Feature>, inputIds: seq<StudyId>, inputImages: seq<ImageFile>)
      modifies this
      ensures this.inputIds == inputIds && this.inputImages == inputImages
      ensures masker == Some(dataset.masker)
      ensures images == Collect(features, FeatureArrays(
                DistributionSetup(dataset, frequencyThreshold, inputIds, inputImages), features))
      ensures this.features == Retained(features, Keys(images))
      ensures Distinct(features) ==> this.features == Keys(images)
      ensures Fitted()
    {
      this.inputIds := inputIds;
      this.inputImages := inputImages;
      masker := Some(dataset.masker);
      var dict := CollectImages(dataset, features);
      ghost var setup := DistributionSetup(dataset, frequencyThreshold, inputIds, inputImages);
      FeatureArraysConsistent(setup, features);
      CollectRetained(features, FeatureArrays(setup, features));
      this.features := Retained(features, Keys(dict));
      images := dict;
    }

    /** `transform`: one row per remaining feature, in feature order, with
        the mean and standard deviation of the Fisher z of the image's
        correlations with that feature's study maps; a feature without
        stored maps keeps its zero row. */
    method Transform(img: ImageFile, numerics: Numerics) returns (out: seq<FeatureStats>)
      requires Fitted()
      ensures |out| == |features|
      ensures var imgVec := masker.value.transform(img);
              forall j :: 0 <= j < |out| ==>
                && out[j].feature == features[j]
                && (features[j] in Keys(images) ==>
                      && out[j].mean == numerics.mean(FisherZ(imgVec, Get(images, features[j]), numerics))
                      && out[j].std == numerics.std(FisherZ(imgVec, Get(images, features[j]), numerics)))
                && (features[j] !in Keys(images) ==> out[j].mean == 0.0 && out[j].std == 0.0)
    {
      var imgVec := masker.value.transform(img);
      var fs, dict := features, images;
      out := seq(|fs|, j requires 0 <= j < |fs| => FeatureStats(fs[j], 0.0, 0.0));
      for p := 0 to |dict|
        invariant |out| == |fs|
        invariant forall j :: 0 <= j < |fs| ==>
                    && out[j].feature == fs[j]
                    && (fs[j] in Keys(dict[..p]) ==>
                          && fs[j] in Keys(dict)
                          && out[j].mean == numerics.mean(FisherZ(imgVec, Get(dict, fs[j]), numerics))
                          && out[j].std == numerics.std(FisherZ(imgVec, Get(dict, fs[j]), numerics)))
                    && (fs[j] !in Keys(dict[..p]) ==> out[j].mean == 0.0 && out[j].std == 0.0)
      {
        var (feature, featureArr) := dict[p];
        var corrsZ := FisherZ(imgVec, featureArr, numerics);
        var m, sd := numerics.mean(corrsZ), numerics.std(corrsZ);
        GetAt(dict, p);
        assert Keys(dict[..p + 1]) == Keys(dict[..p]) + [feature];
        out := seq(|out|, j requires 0 <= j < |out| =>
                 if fs[j] == feature then FeatureStats(feature, m, sd) else out[j]);
      }
      assert dict[..|dict|] == dict;
    }
  }
}

=== FILE: dicts.dfy ===
/**
  A Python dict as an insertion-ordered sequence of (key, value) pairs:
  assigning to a new key appends it, assigning to a present key replaces
  its value in place, and iteration follows insertion order.
*/
module Dicts {

  type Dict<K, V> = seq<(K, V)>

  function Keys<K, V>(d: Dict<K, V>): (ks: seq<K>)
    ensures |ks| == |d|
    ensures forall i :: 0 <= i < |d| ==> ks[i] == d[i].0
  {
    seq(|d|, i requires 0 <= i < |d| => d[i].0)
  }

  predicate Distinct<K(==)>(s: seq<K>) {
    forall i, j :: 0 <= i < j < |s| ==> s[i] != s[j]
  }

  /** d[k]: the value stored under k. */
  function Get<K(==), V>(d: Dict<K, V>, k: K): V
    requires k in Keys(d)
  {
    if d[0].0 == k then d[0].1 else Get(d[1..], k)
  }

  /** With distinct keys, Get finds the value stored at the key's position. */
  lemma {:induction false} GetAt<K, V>(d: Dict<K, V>, j: nat)
    requires j < |d| && Distinct(Keys(d))
    ensures d[j].0 in Keys(d) && Get(d, d[j].0) == d[j].1
  {
    if j > 0 {
      assert d[0].0 != d[j].0;
      assert Keys(d[1..]) == Keys(d)[1..];
      GetAt(d[1..], j - 1);
    }
  }

  /** d[k] = v. */
  function Put<K(==), V>(d: Dict<K, V>, k: K, v: V): Dict<K, V> {
    if |d| == 0 then [(k, v)]
    else if d[0].0 == k then [(k, v)] + d[1..]
    else [d[0]] + Put(d[1..], k, v)
  }

  /** A new key is appended, a present key keeps its place. */
  lemma {:induction false} PutKeys<K, V>(d: Dict<K, V>, k: K, v: V)
    ensures Keys(Put(d, k, v)) == if k in Keys(d) then Keys(d) else Keys(d) + [k]
  {
    if |d| > 0 {
      assert Keys(d) == [d[0].0] + Keys(d[1..]);
      if d[0].0 == k {
        assert Keys(Put(d, k, v)) == Keys(d);
      } else {
        PutKeys(d[1..], k, v);
        var rest := Put(d[1..], k, v);
        assert Keys(Put(d, k, v)) == [d[0].0] + Keys(rest);
      }
    }
  }

  /** After d[k] = v, d[k] is v. */
  lemma {:induction false} PutGet<K, V>(d: Dict<K, V>, k: K, v: V)
    ensures k in Keys(Put(d, k, v)) && Get(Put(d, k, v), k) == v
  {
    PutKeys(d, k, v);
    if |d| > 0 && d[0].0 != k {
      PutGet(d[1..], k, v);
      assert Put(d, k, v)[1..] == Put(d[1..], k, v);
    }
  }

  /** After d[k] = v, every other key keeps its value. */
  lemma {:induction false} PutGetOther<K, V>(d: Dict<K, V>, k: K, v: V, k': K)
    requires k' in Keys(d) && k' != k
    ensures k' in Keys(Put(d, k, v)) && Get(Put(d, k, v), k') == Get(d, k')
  {
    PutKeys(d, k, v);
    var r := Put(d, k, v);
    assert Keys(d) == [d[0].0] + Keys(d[1..]);
    if d[0].0 == k {
      assert r == [(k, v)] + d[1..];
      assert r[1..] == d[1..];
      assert Get(r, k') == Get(r[1..], k');
    } else {
      var rest := Put(d[1..], k, v);
      assert r == [d[0]] + rest;
      if d[0].0 != k' {
        PutGetOther(d[1..], k, v, k');
        assert r[1..] == rest;
        assert Get(r, k') == Get(rest, k');
      }
    }
  }

  /** Assigning keeps the keys distinct. */
  lemma PutDistinct<K, V>(d: Dict<K, V>, k: K, v: V)
    requires Distinct(Keys(d))
    ensures Distinct(Keys(Put(d, k, v)))
  {
    PutKeys(d, k, v);
    if k !in Keys(d) {
      var ks := Keys(d) + [k];
      forall i, j | 0 <= i < j < |ks| ensures ks[i] != ks[j] {
        if j == |ks| - 1 {
          assert ks[i] in Keys(d);
        }
      }
    }
  }
}

=== FILE: encode.dfy ===
/**
  Text-to-image encoding with a GC-LDA model (`gclda_encode`): the text is
  counted against the vocabulary, the rows of p(topic | word) of the terms
  that occur are weighted by their counts and summed into one weight per
  topic, priors are applied, and the topic weights are projected through
  p(voxel | topic) into one weight per voxel of the mask.
*/
module Encode {
  import opened Wrappers
  import opened LinAlg
  import opened Seqs
  import opened Vocabulary
  import opened Gclda

  /** `CountVectorizer(vocabulary=vocabulary, ngram_range=(1, max_len))`
      applied to the text: one count per vocabulary term. Its tokenisation
      is defined outside this model; it is passed in as a function of the
      text, the (underscore-joined) vocabulary and max_len. */
  type Vectorizer = (string, seq<string>, nat) -> seq<nat>

  datatype Encoded = Encoded(voxelWeights: Vector, topicWeights: Vector)

  function IsHit(count: nat): bool {
    count > 0
  }

  /** `np.where(word_counts > 0)[0]`: ascending, and exactly the positions
      of the terms that occur in the text. */
  function KeepIdx(counts: seq<nat>): (keep: seq<nat>)
    ensures StrictlyIncreasing(keep) && InRange(keep, |counts|)
    ensures forall i :: 0 <= i < |counts| ==> (i in keep <==> counts[i] > 0)
  {
    Positions(counts, IsHit)
  }

  /** `word_counts[keep_idx]`: the counts of the terms that occur, in
      vocabulary order, all positive. */
  function TextCounts(counts: seq<nat>): (tc: seq<nat>)
    ensures |tc| == |KeepIdx(counts)|
    ensures forall k :: 0 <= k < |tc| ==> tc[k] == counts[KeepIdx(counts)[k]]
    ensures forall k :: 0 <= k < |tc| ==> tc[k] > 0
  {
    SelectAt(counts, KeepIdx(counts))
  }

  function Reals(counts: seq<nat>): (r: Vector)
    ensures |r| == |counts|
    ensures forall i :: 0 <= i < |r| ==> r[i] == counts[i] as real
  {
    seq(|counts|, i requires 0 <= i < |counts| => counts[i] as real)
  }

  /** Appending a row and its weight adds that scaled row to the sum. */
  lemma WeightedRowSumSnoc(m: Matrix, w: Vector, row: Vector, x: real, cols: nat)
    requires IsMatrix(m, |w|, cols) && |row| == cols
    ensures IsMatrix(m + [row], |w + [x]|, cols)
    ensures WeightedRowSum(m + [row], w + [x], cols) == Add(WeightedRowSum(m, w, cols), Scale(row, x))
  {
    assert (m + [row])[..|m|] == m;
    assert (w + [x])[..|w|] == w;
  }

  /** Dropping the last count extends KeepIdx by that position or not at all. */
  lemma KeepIdxSnoc(counts: seq<nat>)
    requires |counts| > 0
    ensures KeepIdx(counts) == KeepIdx(counts[..|counts| - 1])
                               + (if counts[|counts| - 1] > 0 then [|counts| - 1] else [])
  {
  }

  lemma RealsSnoc(counts: seq<nat>, c: nat)
    ensures Reals(counts + [c]) == Reals(counts) + [c as real]
  {
  }

  /** The selected weighted row sum of a count vector, as `gclda_encode`
      computes it over the kept words only. */
  function KeptRowSum(m: Matrix, counts: seq<nat>, cols: nat): (r: Vector)
    requires IsMatrix(m, |counts|, cols)
    ensures |r| == cols
  {
    var keep := KeepIdx(counts);
    WeightedRowSum(SelectAt(m, keep), Reals(SelectAt(counts, keep)), cols)
  }

  /** A last word that occurs in the text adds its row, scaled by its
      count, to the kept-row sum of the shorter vocabulary. */
  lemma KeptRowSumSnocHit(m: Matrix, counts: seq<nat>, cols: nat)
    requires IsMatrix(m, |counts|, cols) && |counts| > 0 && counts[|counts| - 1] > 0
    ensures KeptRowSum(m, counts, cols)
              == Add(KeptRowSum(m[..|m| - 1], counts[..|counts| - 1], cols),
                     Scale(m[|m| - 1], counts[|counts| - 1] as real))
  {
    var n := |counts|;
    var m', c' := m[..n - 1], counts[..n - 1];
    var k' := KeepIdx(c');
    KeepIdxSnoc(counts);
    assert KeepIdx(counts) == k' + [n - 1];
    SelectAtPrefix(m, k', n - 1);
    SelectAtPrefix(counts, k', n - 1);
    SelectAtSnoc(m, k', n - 1);
    SelectAtSnoc(counts, k', n - 1);
    var rows', weights' := SelectAt(m', k'), SelectAt(c', k');
    assert SelectAt(m, KeepIdx(counts)) == rows' + [m[n - 1]];
    assert SelectAt(counts, KeepIdx(counts)) == weights' + [counts[n - 1]];
    RealsSnoc(weights', counts[n - 1]);
    WeightedRowSumSnoc(rows', Reals(weights'), m[n - 1], counts[n - 1] as real, cols);
  }

  /** Inductive step for a last word that occurs in the text. */
  lemma KeptRowSumHit(m: Matrix, counts: seq<nat>, cols: nat)
    requires IsMatrix(m, |counts|, cols) && |counts| > 0 && counts[|counts| - 1] > 0
    requires KeptRowSum(m[..|m| - 1], counts[..|counts| - 1], cols)
               == WeightedRowSum(m[..|m| - 1], Reals(counts[..|counts| - 1]), cols)
    ensures KeptRowSum(m, counts, cols) == WeightedRowSum(m, Reals(counts), cols)
  {
    KeptRowSumSnocHit(m, counts, cols);
    var w := Reals(counts);
    assert w[..|w| - 1] == Reals(counts[..|counts| - 1]);
    assert w[|w| - 1] == counts[|counts| - 1] as real;
  }

  /** Inductive step for a last word that does not occur in the text. */
  lemma KeptRowSumMiss(m: Matrix, counts: seq<nat>, cols: nat)
    requires IsMatrix(m, |counts|, cols) && |counts| > 0 && counts[|counts| - 1] == 0
    requires KeptRowSum(m[..|m| - 1], counts[..|counts| - 1], cols)
               == WeightedRowSum(m[..|m| - 1], Reals(counts[..|counts| - 1]), cols)
    ensures KeptRowSum(m, counts, cols) == WeightedRowSum(m, Reals(counts), cols)
  {
    var n := |counts|;
    var m', c' := m[..n - 1], counts[..n - 1];
    var k' := KeepIdx(c');
    KeepIdxSnoc(counts);
    assert KeepIdx(counts) == k';
    SelectAtPrefix(m, k', n - 1);
    SelectAtPrefix(counts, k', n - 1);
    assert Reals(counts)[..n - 1] == Reals(c');
    WeightedRowSumDropZero(m, Reals(counts), cols);
  }

  /** Keeping only the rows with a positive count does not change the
      weighted row sum: a zero count contributes a zero row. */
  lemma {:induction false} ZeroCountsContributeNothing(m: Matrix, counts: seq<nat>, cols: nat)
    requires IsMatrix(m, |counts|, cols)
    ensures KeptRowSum(m, counts, cols) == WeightedRowSum(m, Reals(counts), cols)
  {
    var n := |counts|;
    if n > 0 {
      ZeroCountsContributeNothing(m[..n - 1], counts[..n - 1], cols);
      if counts[n - 1] > 0 {
        KeptRowSumHit(m, counts, cols);
      } else {
        KeptRowSumMiss(m, counts, cols);
      }
    }
  }

  /** Topic weights from word counts (`np.sum(p_topic_g_word_[keep_idx] *
      text_counts[:, None], axis=0)`): one weight per topic; entry t sums
      p(t | word) times the count over the words that occur, which is the
      same as summing over the whole vocabulary. */
  function TopicWeightsFromCounts(model: GcldaModel, counts: seq<nat>): (tw: Vector)
    requires model.Valid() && |counts| == |model.vocabulary|
    ensures |tw| == model.nTopics
    ensures forall t :: 0 <= t < model.nTopics ==>
              tw[t] == Dot(Column(SelectAt(model.pTopicGWord, KeepIdx(counts)), t), Reals(TextCounts(counts)))
    ensures forall t :: 0 <= t < model.nTopics ==>
              tw[t] == Dot(Column(model.pTopicGWord, t), Reals(counts))
  {
    var keep := KeepIdx(counts);
    var rows := SelectAt(model.pTopicGWord, keep);
    var tc := Reals(TextCounts(counts));
    assert IsMatrix(rows, |tc|, model.nTopics);
    ZeroCountsContributeNothing(model.pTopicGWord, counts, model.nTopics);
    WeightedRowSumIsTransposeProduct(rows, tc, model.nTopics);
    WeightedRowSumIsTransposeProduct(model.pTopicGWord, Reals(counts), model.nTopics);
    KeptRowSum(model.pTopicGWord, counts, model.nTopics)
  }

  /** The counts the vectorizer produces for the joined text, with n-grams
      up to the longest vocabulary term: the n-gram bound passed is reached
      by some term's surface form and bounds every one. */
  function WordCounts(model: GcldaModel, text: TextInput, vectorize: Vectorizer): (counts: seq<nat>)
    requires |model.vocabulary| > 0
    ensures (forall s, v, n :: |vectorize(s, v, n)| == |v|) ==> |counts| == |model.vocabulary|
    ensures exists n: nat :: && counts == vectorize(JoinText(text), model.vocabulary, n)
                             && (forall i :: 0 <= i < |model.vocabulary| ==>
                                   TermLength(SurfaceForm(model.vocabulary[i])) <= n)
                             && (exists i :: 0 <= i < |model.vocabulary| &&
                                   TermLength(SurfaceForm(model.vocabulary[i])) == n)
  {
    var surface := SurfaceVocabulary(model.vocabulary);
    assert forall i :: 0 <= i < |model.vocabulary| ==> surface[i] == SurfaceForm(model.vocabulary[i]);

    vectorize(JoinText(text), model.vocabulary, MaxLen(surface).value)
  }

  /** `gclda_encode`, up to unmasking the voxel weights into an image. */
  function EncodeText(model: GcldaModel, text: TextInput, vectorize: Vectorizer,
                      topicPriors: Option<Vector>, priorWeight: real,
                      weightPriors: PriorWeighting): (r: Result<Encoded, GcldaError>)
    requires model.Valid()
    requires forall s, v, n :: |vectorize(s, v, n)| == |v|
    ensures |model.vocabulary| == 0 <==> r == Err(EmptyVocabulary)
    ensures r.Ok? ==> |r.value.topicWeights| == model.nTopics
    ensures r.Ok? ==> |r.value.voxelWeights| == model.NumVoxels()
    ensures r.Ok? ==> forall v :: 0 <= v < model.NumVoxels() ==>
              r.value.voxelWeights[v] == Dot(model.pVoxelGTopic[v], r.value.topicWeights)
    ensures |model.vocabulary| > 0 ==>
              var tw := TopicWeightsFromCounts(model, WordCounts(model, text, vectorize));
              var weighted := ApplyPriors(tw, topicPriors, priorWeight, weightPriors);
              && (r.Ok? <==> weighted.Ok?)
              && (r.Ok? ==> r.value.topicWeights == weighted.value)
  {
    var surface := SurfaceVocabulary(model.vocabulary);
    match MaxLen(surface)
    case None => Err(EmptyVocabulary)
    case Some(maxLen) =>
      var counts := vectorize(JoinText(text), model.vocabulary, maxLen);
      var tw := TopicWeightsFromCounts(model, counts);
      match ApplyPriors(tw, topicPriors, priorWeight, weightPriors)
      case Err(e) => Err(e)
      case Ok(weighted) => Ok(Encoded(MatVec(model.pVoxelGTopic, weighted), weighted))
  }

  /** Counts with no hit keep no word and give all-zero topic weights. */
  lemma NoHitsZeroTopicWeights(model: GcldaModel, counts: seq<nat>)
    requires model.Valid() && |counts| == |model.vocabulary|
    requires forall i :: 0 <= i < |counts| ==> counts[i] == 0
    ensures KeepIdx(counts) == []
    ensures AllZero(TopicWeightsFromCounts(model, counts))
  {
    PositionsNone(counts, IsHit);
    var tw := TopicWeightsFromCounts(model, counts);
    assert AllZero(Reals(counts));
    forall t | 0 <= t < model.nTopics ensures tw[t] == 0.0 {
      DotZero(Column(model.pTopicGWord, t), Reals(counts));
    }
  }

  /** Text with no vocabulary hits keeps no word, and encodes to all-zero
      topic weights and all-zero voxel weights, with or without priors. */
  lemma NoHitsEncodeToZero(model: GcldaModel, text: TextInput, vectorize: Vectorizer,
                           topicPriors: Option<Vector>, priorWeight: real,
                           weightPriors: PriorWeighting)
    requires model.Valid() && |model.vocabulary| > 0
    requires forall s, v, n :: |vectorize(s, v, n)| == |v|
    requires forall i :: 0 <= i < |model.vocabulary| ==> WordCounts(model, text, vectorize)[i] == 0
    ensures KeepIdx(WordCounts(model, text, vectorize)) == []
    ensures var r := EncodeText(model, text, vectorize, topicPriors, priorWeight, weightPriors);
            r.Ok? ==> AllZero(r.value.topicWeights) && AllZero(r.value.voxelWeights)
  {
    var counts := WordCounts(model, text, vectorize);
    NoHitsZeroTopicWeights(model, counts);
    var tw := TopicWeightsFromCounts(model, counts);
    var r := EncodeText(model, text, vectorize, topicPriors, priorWeight, weightPriors);
    if r.Ok? {
      var weighted := ApplyPriors(tw, topicPriors, priorWeight, weightPriors);
      assert r.value.topicWeights == weighted.value;
      ApplyPriorsKeepsZeros(tw, topicPriors, priorWeight, weightPriors);
      assert AllZero(r.value.topicWeights);
      MatVecZero(model.pVoxelGTopic, r.value.topicWeights);
      assert r.value.voxelWeights == MatVec(model.pVoxelGTopic, r.value.topicWeights);
    }
  }
}

=== FILE: gclda.dfy ===
/**
  The trained GC-LDA topic model as the decoder and encoder see it, and the
  shared step that multiplies topic weights by weighted topic priors.
*/
module Gclda {
  import opened Wrappers
  import opened LinAlg

  /** The errors of the GC-LDA decode and encode functions. */
  datatype GcldaError =
    | ShapeMismatch      // numpy could not align two operands
    | EmptyVocabulary    // max() over the empty list of term lengths

  /** The matrices of a trained model. Rows of the voxel matrices are voxels
      inside the model's mask, rows of the word matrices are vocabulary
      terms, and every row has one column per topic. */
  datatype GcldaModel = GcldaModel(
    vocabulary: seq<string>,
    nTopics: nat,
    pTopicGVoxel: Matrix,   // p(topic | voxel)
    pVoxelGTopic: Matrix,   // p(voxel | topic)
    pWordGTopic: Matrix,    // p(word | topic)
    pTopicGWord: Matrix)    // p(topic | word)
  {
    /** Number of voxels in the model's mask. */
    function NumVoxels(): nat {
      |pTopicGVoxel|
    }

    predicate Valid() {
      && IsMatrix(pTopicGVoxel, NumVoxels(), nTopics)
      && IsMatrix(pVoxelGTopic, NumVoxels(), nTopics)
      && IsMatrix(pWordGTopic, |vocabulary|, nTopics)
      && IsMatrix(pTopicGWord, |vocabulary|, nTopics)
    }
  }

  /** `weight_priors(topic_priors, prior_weight)` is defined outside this
      model; it is passed in as an arbitrary function. */
  type PriorWeighting = (Vector, real) -> Vector

  /** `if topic_priors is not None: topic_weights *= weight_priors(...)`.
      numpy's in-place product accepts a prior vector of the same length or
      of length 1 (broadcast); any other length is a shape error. */
  function ApplyPriors(topicWeights: Vector, topicPriors: Option<Vector>, priorWeight: real,
                       weightPriors: PriorWeighting): (r: Result<Vector, GcldaError>)
    ensures topicPriors.None? ==> r == Ok(topicWeights)
    ensures topicPriors.Some? ==>
              var wp := weightPriors(topicPriors.value, priorWeight);
              && (r.Ok? <==> |wp| == |topicWeights| || |wp| == 1)
              && (r.Err? ==> r.error == ShapeMismatch)
              && (r.Ok? ==> |r.value| == |topicWeights|)
              && (r.Ok? ==>
                    forall t :: 0 <= t < |topicWeights| ==>
                      r.value[t] == topicWeights[t] * (if |wp| == |topicWeights| then wp[t] else wp[0]))
  {
    match topicPriors
    case None => Ok(topicWeights)
    case Some(priors) =>
      var wp := weightPriors(priors, priorWeight);
      if |wp| == |topicWeights| then Ok(Hadamard(topicWeights, wp))
      else if |wp| == 1 then Ok(Scale(topicWeights, wp[0]))
      else Err(ShapeMismatch)
  }

  /** Priors never revive a topic: a zero weight stays zero, so all-zero
      topic weights stay all zero. */
  lemma ApplyPriorsKeepsZeros(topicWeights: Vector, topicPriors: Option<Vector>, priorWeight: real,
                              weightPriors: PriorWeighting)
    requires ApplyPriors(topicWeights, topicPriors, priorWeight, weightPriors).Ok?
    ensures var r := ApplyPriors(topicWeights, topicPriors, priorWeight, weightPriors).value;
            forall t :: 0 <= t < |topicWeights| && topicWeights[t] == 0.0 ==> r[t] == 0.0
  {
  }
}

=== FILE: linalg.dfy ===
/**
  Vectors and matrices of reals, and the two matrix-vector products the
  GC-LDA pipeline uses:
  - MatVec(m, v): one dot product per row of m (numpy `np.dot(m, v)`);
  - WeightedRowSum(m, w, cols): the rows of m scaled by the weights w and
    summed (numpy `np.dot(m.T, w)` and `np.sum(m * w[:, None], axis=0)`).
*/
module LinAlg {

  type Vector = seq<real>
  type Matrix = seq<seq<real>>

  /** m has `rows` rows, each of length `cols`. */
  predicate IsMatrix(m: Matrix, rows: nat, cols: nat) {
    |m| == rows && forall i :: 0 <= i < |m| ==> |m[i]| == cols
  }

  function Zeros(n: nat): (r: Vector)
    ensures |r| == n
    ensures forall i :: 0 <= i < n ==> r[i] == 0.0
  {
    seq(n, _ => 0.0)
  }

  predicate AllZero(v: Vector) {
    forall i :: 0 <= i < |v| ==> v[i] == 0.0
  }

  function Add(a: Vector, b: Vector): (r: Vector)
    requires |a| == |b|
    ensures |r| == |a|
    ensures forall i :: 0 <= i < |r| ==> r[i] == a[i] + b[i]
  {
    seq(|a|, i requires 0 <= i < |a| => a[i] + b[i])
  }

  function Scale(a: Vector, c: real): (r: Vector)
    ensures |r| == |a|
    ensures forall i :: 0 <= i < |r| ==> r[i] == c * a[i]
  {
    seq(|a|, i requires 0 <= i < |a| => c * a[i])
  }

  /** Elementwise product. */
  function Hadamard(a: Vector, b: Vector): (r: Vector)
    requires |a| == |b|
    ensures |r| == |a|
    ensures forall i :: 0 <= i < |r| ==> r[i] == a[i] * b[i]
  {
    seq(|a|, i requires 0 <= i < |a| => a[i] * b[i])
  }

  /** Sum over i of a[i] * b[i], accumulated from the last index. */
  function Dot(a: Vector, b: Vector): real
    requires |a| == |b|
  {
    if |a| == 0 then 0.0 else Dot(a[..|a| - 1], b[..|b| - 1]) + a[|a| - 1] * b[|b| - 1]
  }

  /** Column t of m. */
  function Column(m: Matrix, t: nat): (c: Vector)
    requires forall i :: 0 <= i < |m| ==> t < |m[i]|
    ensures |c| == |m|
    ensures forall i :: 0 <= i < |m| ==> c[i] == m[i][t]
  {
    seq(|m|, i requires 0 <= i < |m| => m[i][t])
  }

  /** np.dot(m, v): entry i is the dot product of row i with v. */
  function MatVec(m: Matrix, v: Vector): (r: Vector)
    requires IsMatrix(m, |m|, |v|)
    ensures |r| == |m|
    ensures forall i :: 0 <= i < |m| ==> r[i] == Dot(m[i], v)
  {
    seq(|m|, i requires 0 <= i < |m| => Dot(m[i], v))
  }

  /** The rows of m, row i scaled by w[i], summed; a vector of length cols. */
  function WeightedRowSum(m: Matrix, w: Vector, cols: nat): (r: Vector)
    requires IsMatrix(m, |w|, cols)
    ensures |r| == cols
  {
    if |m| == 0 then Zeros(cols)
    else Add(WeightedRowSum(m[..|m| - 1], w[..|w| - 1], cols), Scale(m[|m| - 1], w[|w| - 1]))
  }

  /** A last row with weight zero adds nothing to the sum. */
  lemma WeightedRowSumDropZero(m: Matrix, w: Vector, cols: nat)
    requires IsMatrix(m, |w|, cols) && |w| > 0 && w[|w| - 1] == 0.0
    ensures WeightedRowSum(m, w, cols) == WeightedRowSum(m[..|m| - 1], w[..|w| - 1], cols)
  {
    var prev := WeightedRowSum(m[..|m| - 1], w[..|w| - 1], cols);
    var last := Scale(m[|m| - 1], 0.0);
    assert forall i :: 0 <= i < cols ==> last[i] == 0.0;
    assert Add(prev, last) == prev;
  }

  /** Entry t of the weighted row sum is column t of m dotted with the
      weights: summing scaled rows is multiplying by the transpose. */
  lemma {:induction false} WeightedRowSumAt(m: Matrix, w: Vector, cols: nat, t: nat)
    requires IsMatrix(m, |w|, cols)
    requires t < cols
    ensures WeightedRowSum(m, w, cols)[t] == Dot(Column(m, t), w)
  {
    if |m| > 0 {
      var n := |m| - 1;
      WeightedRowSumAt(m[..n], w[..n], cols, t);
      assert Column(m, t)[..n] == Column(m[..n], t);
    }
  }

  /** All entries at once. */
  lemma WeightedRowSumIsTransposeProduct(m: Matrix, w: Vector, cols: nat)
    requires IsMatrix(m, |w|, cols)
    ensures forall t :: 0 <= t < cols ==> WeightedRowSum(m, w, cols)[t] == Dot(Column(m, t), w)
  {
    forall t | 0 <= t < cols
      ensures WeightedRowSum(m, w, cols)[t] == Dot(Column(m, t), w)
    {
      WeightedRowSumAt(m, w, cols, t);
    }
  }

  /** Dot with an all-zero vector is zero. */
  lemma {:induction false} DotZero(a: Vector, b: Vector)
    requires |a| == |b| && AllZero(b)
    ensures Dot(a, b) == 0.0
  {
    if |a| > 0 {
      DotZero(a[..|a| - 1], b[..|b| - 1]);
    }
  }

  /** Projecting an all-zero vector gives an all-zero vector. */
  lemma MatVecZero(m: Matrix, v: Vector)
    requires IsMatrix(m, |m|, |v|) && AllZero(v)
    ensures AllZero(MatVec(m, v))
  {
    forall i | 0 <= i < |m| ensures MatVec(m, v)[i] == 0.0 {
      DotZero(m[i], v);
    }
  }
}

=== FILE: seqs.dfy ===
/**
  Position-based selection on sequences, as numpy and list comprehensions
  do it: `np.where(cond)[0]`, fancy indexing `s[idx]`, and
  `[x for i, x in enumerate(s) if i in idx]`.
*/
module Seqs {

  predicate StrictlyIncreasing(idx: seq<nat>) {
    forall i, j :: 0 <= i < j < |idx| ==> idx[i] < idx[j]
  }

  /** Every index is a valid position of a sequence of length n. */
  predicate InRange(idx: seq<nat>, n: nat) {
    forall k :: 0 <= k < |idx| ==> idx[k] < n
  }

  /** The ascending positions of s whose element satisfies keep. */
  function Positions<T>(s: seq<T>, keep: T -> bool): (r: seq<nat>)
    ensures StrictlyIncreasing(r) && InRange(r, |s|)
    ensures forall k :: 0 <= k < |r| ==> keep(s[r[k]])
    ensures forall i :: 0 <= i < |s| && keep(s[i]) ==> i in r
  {
    if |s| == 0 then []
    else Positions(s[..|s| - 1], keep) + (if keep(s[|s| - 1]) then [|s| - 1] else [])
  }

  /** No element satisfies keep: there is no position to report. */
  lemma {:induction false} PositionsNone<T>(s: seq<T>, keep: T -> bool)
    requires forall i :: 0 <= i < |s| ==> !keep(s[i])
    ensures Positions(s, keep) == []
  {
    if |s| > 0 {
      PositionsNone(s[..|s| - 1], keep);
    }
  }

  /** `[g(x) for x in xs]`. */
  function Mapped<A, B>(xs: seq<A>, g: A -> B): (r: seq<B>)
    ensures |r| == |xs|
  {
    if |xs| == 0 then [] else Mapped(xs[..|xs| - 1], g) + [g(xs[|xs| - 1])]
  }

  lemma {:induction false} MappedAt<A, B>(xs: seq<A>, g: A -> B, k: nat)
    requires k < |xs|
    ensures Mapped(xs, g)[k] == g(xs[k])
  {
    var n := |xs| - 1;
    if k < n {
      MappedAt(xs[..n], g, k);
    }
  }

  /** Fancy indexing: the elements of s at the positions idx, in idx order. */
  function SelectAt<T>(s: seq<T>, idx: seq<nat>): (r: seq<T>)
    requires InRange(idx, |s|)
    ensures |r| == |idx|
    ensures forall k :: 0 <= k < |r| ==> r[k] == s[idx[k]]
  {
    seq(|idx|, k requires 0 <= k < |idx| => s[idx[k]])
  }

  /** Selecting one more position appends that element. */
  lemma SelectAtSnoc<T>(s: seq<T>, idx: seq<nat>, j: nat)
    requires InRange(idx, |s|) && j < |s|
    ensures InRange(idx + [j], |s|)
    ensures SelectAt(s, idx + [j]) == SelectAt(s, idx) + [s[j]]
  {
    assert InRange(idx + [j], |s|);
  }

  /** Selecting from a prefix by positions that all fall in the prefix. */
  lemma SelectAtPrefix<T>(s: seq<T>, idx: seq<nat>, n: nat)
    requires n <= |s| && InRange(idx, n)
    ensures SelectAt(s, idx) == SelectAt(s[..n], idx)
  {
  }

  /** The elements of s whose position occurs in idx, in the order of s. */
  function KeepAt<T>(s: seq<T>, idx: seq<nat>): (r: seq<T>)
    ensures |r| <= |s|
  {
    if |s| == 0 then []
    else KeepAt(s[..|s| - 1], idx) + (if |s| - 1 in idx then [s[|s| - 1]] else [])
  }

  /** KeepAt only looks at the positions below |s|. */
  lemma {:induction false} KeepAtIgnoresLargePositions<T>(s: seq<T>, idx: seq<nat>, idx': seq<nat>)
    requires forall i :: 0 <= i < |s| ==> (i in idx <==> i in idx')
    ensures KeepAt(s, idx) == KeepAt(s, idx')
  {
    if |s| > 0 {
      KeepAtIgnoresLargePositions(s[..|s| - 1], idx, idx');
    }
  }

  /** No position is in range of an empty sequence. */
  lemma NoPositionsInEmpty(idx: seq<nat>, n: nat)
    requires InRange(idx, n)
    ensures n == 0 ==> idx == []
  {
    if |idx| > 0 {
      assert idx[0] < n;
    }
  }

  /** A selected position that bounds every position is the last of idx,
      and the rest of idx stays ascending and below it. */
  lemma MaxPositionIsLast(idx: seq<nat>, n: nat)
    requires StrictlyIncreasing(idx) && InRange(idx, n + 1) && n in idx
    ensures |idx| > 0 && idx[|idx| - 1] == n
    ensures StrictlyIncreasing(idx[..|idx| - 1]) && InRange(idx[..|idx| - 1], n)
  {
    var j :| 0 <= j < |idx| && idx[j] == n;
    assert forall i :: 0 <= i < |idx| - 1 ==> idx[i] < idx[|idx| - 1];
  }

  /** Dropping the last position n leaves membership below n unchanged. */
  lemma DropLastPosition(idx: seq<nat>, n: nat)
    requires |idx| > 0 && idx[|idx| - 1] == n
    ensures forall i :: 0 <= i < n ==> (i in idx <==> i in idx[..|idx| - 1])
  {
    assert idx == idx[..|idx| - 1] + [n];
  }

  /** When the last position of s is selected, it is the last of idx: the
      rest of idx selects from the prefix, and keeping by idx or by the rest
      agrees on the prefix. */
  lemma LastPositionSelected<T>(s: seq<T>, idx: seq<nat>)
    requires |s| > 0 && StrictlyIncreasing(idx) && InRange(idx, |s|) && |s| - 1 in idx
    ensures |idx| > 0 && idx[|idx| - 1] == |s| - 1
    ensures StrictlyIncreasing(idx[..|idx| - 1]) && InRange(idx[..|idx| - 1], |s| - 1)
    ensures KeepAt(s[..|s| - 1], idx) == KeepAt(s[..|s| - 1], idx[..|idx| - 1])
    ensures SelectAt(s, idx) == SelectAt(s[..|s| - 1], idx[..|idx| - 1]) + [s[|s| - 1]]
  {
    var n := |s| - 1;
    MaxPositionIsLast(idx, n);
    var front := idx[..|idx| - 1];
    DropLastPosition(idx, n);
    KeepAtIgnoresLargePositions(s[..n], idx, front);
    assert idx == front + [n];
    SelectAtSnoc(s, front, n);
    SelectAtPrefix(s, front, n);
  }

  /** When the last position of s is not selected, every position of idx
      falls in the prefix and selecting from s or from the prefix agrees. */
  lemma LastPositionSkipped<T>(s: seq<T>, idx: seq<nat>)
    requires |s| > 0 && InRange(idx, |s|) && |s| - 1 !in idx
    ensures InRange(idx, |s| - 1)
    ensures SelectAt(s, idx) == SelectAt(s[..|s| - 1], idx)
  {
    var n := |s| - 1;
    forall k | 0 <= k < |idx| ensures idx[k] < n {
      assert idx[k] != n;
    }
    assert SelectAt(s, idx) == SelectAt(s[..n], idx);
  }

  /** Filtering by position membership agrees with fancy indexing when the
      positions are ascending and in range: the kept elements are exactly
      those at idx, in input order. */
  lemma {:induction false} KeepAtIsSelectAt<T>(s: seq<T>, idx: seq<nat>)
    requires StrictlyIncreasing(idx) && InRange(idx, |s|)
    ensures KeepAt(s, idx) == SelectAt(s, idx)
  {
    if |s| > 0 {
      if |s| - 1 in idx {
        LastPositionSelected(s, idx);
        KeepAtIsSelectAt(s[..|s| - 1], idx[..|idx| - 1]);
      } else {
        LastPositionSkipped(s, idx);
        KeepAtIsSelectAt(s[..|s| - 1], idx);
      }
    } else {
      NoPositionsInEmpty(idx, |s|);
    }
  }
}

=== FILE: study_ids.dfy ===
/**
  Study identifiers and the id lists the correlation decoders build with
  `sorted(list(set(a).intersection(b)))` and `sorted(list(set(a) - set(b)))`.
  Identifiers are strings ordered as Python orders `str`: lexicographically
  by code point, a proper prefix first.
*/
module StudyIds {

  type StudyId = string

  /** Python's `a < b` on strings. */
  predicate Before(a: string, b: string) {
    if |a| == 0 then |b| > 0
    else if |b| == 0 then false
    else a[0] < b[0] || (a[0] == b[0] && Before(a[1..], b[1..]))
  }

  lemma {:induction false} BeforeIrreflexive(a: string)
    ensures !Before(a, a)
  {
    if |a| > 0 {
      BeforeIrreflexive(a[1..]);
    }
  }

  lemma {:induction false} BeforeTransitive(a: string, b: string, c: string)
    requires Before(a, b) && Before(b, c)
    ensures Before(a, c)
  {
    if |a| > 0 && |b| > 0 && |c| > 0 && a[0] == b[0] == c[0] {
      BeforeTransitive(a[1..], b[1..], c[1..]);
    }
  }

  lemma {:induction false} BeforeTotal(a: string, b: string)
    ensures a == b || Before(a, b) || Before(b, a)
  {
    if |a| > 0 && |b| > 0 && a[0] == b[0] {
      BeforeTotal(a[1..], b[1..]);
      if a[1..] == b[1..] {
        assert a == [a[0]] + a[1..] && b == [b[0]] + b[1..];
      }
    }
  }

  lemma BeforeAsymmetric(a: string, b: string)
    requires Before(a, b)
    ensures !Before(b, a)
  {
    if Before(b, a) {
      BeforeTransitive(a, b, a);
      BeforeIrreflexive(a);
    }
  }

  /** Ascending with no repeated element: the shape of `sorted(set(..))`. */
  predicate StrictlySorted(s: seq<StudyId>) {
    forall i, j :: 0 <= i < j < |s| ==> Before(s[i], s[j])
  }

  lemma StrictlySortedDistinct(s: seq<StudyId>)
    requires StrictlySorted(s)
    ensures forall i, j :: 0 <= i < j < |s| ==> s[i] != s[j]
  {
    forall i, j | 0 <= i < j < |s| ensures s[i] != s[j] {
      BeforeIrreflexive(s[i]);
    }
  }

  /** Adds x to a strictly sorted list unless it is already there. */
  function Insert(x: StudyId, s: seq<StudyId>): seq<StudyId> {
    if |s| == 0 then [x]
    else if x == s[0] then s
    else if Before(x, s[0]) then [x] + s
    else [s[0]] + Insert(x, s[1..])
  }

  /** Insert keeps the list strictly sorted and adds exactly x. */
  lemma {:induction false} InsertSorted(x: StudyId, s: seq<StudyId>)
    requires StrictlySorted(s)
    ensures StrictlySorted(Insert(x, s))
    ensures forall y :: y in Insert(x, s) <==> y == x || y in s
  {
    if |s| == 0 {
    } else if x == s[0] {
    } else if Before(x, s[0]) {
      forall j | 0 < j < |s| ensures Before(x, s[j]) {
        BeforeTransitive(x, s[0], s[j]);
      }
    } else {
      BeforeTotal(x, s[0]);
      assert StrictlySorted(s[1..]);
      InsertSorted(x, s[1..]);
      var rest := Insert(x, s[1..]);
      assert forall y :: y in rest ==> Before(s[0], y);
      assert Insert(x, s) == [s[0]] + rest;
    }
  }

  /** `sorted(list(set(xs)))`. */
  function SortedUnique(xs: seq<StudyId>): seq<StudyId> {
    if |xs| == 0 then []
    else Insert(xs[|xs| - 1], SortedUnique(xs[..|xs| - 1]))
  }

  /** SortedUnique's result is strictly sorted and holds exactly the
      elements of its argument. */
  lemma {:induction false} SortedUniqueSorted(xs: seq<StudyId>)
    ensures StrictlySorted(SortedUnique(xs))
    ensures forall y :: y in SortedUnique(xs) <==> y in xs
  {
    if |xs| > 0 {
      var n := |xs| - 1;
      SortedUniqueSorted(xs[..n]);
      InsertSorted(xs[n], SortedUnique(xs[..n]));
      assert xs == xs[..n] + [xs[n]];
    }
  }

  /** A strictly sorted list is determined by its elements, so every
      strictly sorted list of the same ids is SortedUnique's result. */
  lemma {:induction false} StrictlySortedUnique(a: seq<StudyId>, b: seq<StudyId>)
    requires StrictlySorted(a) && StrictlySorted(b)
    requires forall y :: y in a <==> y in b
    ensures a == b
  {
    if |a| > 0 {
      assert a[0] in b;
    }
    if |b| > 0 {
      assert b[0] in a;
    }
    if |a| > 0 && |b| > 0 {
      if a[0] != b[0] {
        assert a[0] in b && b[0] in a;
        var j :| 0 <= j < |b| && b[j] == a[0];
        var k :| 0 <= k < |a| && a[k] == b[0];
        assert Before(b[0], a[0]);
        assert Before(a[0], b[0]);
        BeforeAsymmetric(a[0], b[0]);
        assert false;
      }
      forall y ensures y in a[1..] <==> y in b[1..] {
        if y in a[1..] {
          var i :| 1 <= i < |a| && a[i] == y;
          BeforeIrreflexive(a[0]);
          assert y != b[0] && y in b;
          assert b == [b[0]] + b[1..];
        }
        if y in b[1..] {
          var i :| 1 <= i < |b| && b[i] == y;
          BeforeIrreflexive(b[0]);
          assert y != a[0] && y in a;
          assert a == [a[0]] + a[1..];
        }
      }
      StrictlySortedUnique(a[1..], b[1..]);
      assert a == [a[0]] + a[1..] && b == [b[0]] + b[1..];
    }
  }

  /** The elements of xs that also occur in ys, in the order of xs. */
  function Common(xs: seq<StudyId>, ys: seq<StudyId>): seq<StudyId> {
    if |xs| == 0 then []
    else Common(xs[..|xs| - 1], ys) + (if xs[|xs| - 1] in ys then [xs[|xs| - 1]] else [])
  }

  lemma {:induction false} CommonMembers(xs: seq<StudyId>, ys: seq<StudyId>)
    ensures forall y :: y in Common(xs, ys) <==> y in xs && y in ys
  {
    if |xs| > 0 {
      var n := |xs| - 1;
      CommonMembers(xs[..n], ys);
      assert xs == xs[..n] + [xs[n]];
    }
  }

  /** The elements of xs that do not occur in ys, in the order of xs. */
  function Without(xs: seq<StudyId>, ys: seq<StudyId>): seq<StudyId> {
    if |xs| == 0 then []
    else Without(xs[..|xs| - 1], ys) + (if xs[|xs| - 1] !in ys then [xs[|xs| - 1]] else [])
  }

  lemma {:induction false} WithoutMembers(xs: seq<StudyId>, ys: seq<StudyId>)
    ensures forall y :: y in Without(xs, ys) <==> y in xs && y !in ys
  {
    if |xs| > 0 {
      var n := |xs| - 1;
      WithoutMembers(xs[..n], ys);
      assert xs == xs[..n] + [xs[n]];
    }
  }

  /** `feature_ids = sorted(list(set(label_ids).intersection(input_ids)))`. */
  function FeatureIds(labelIds: seq<StudyId>, inputIds: seq<StudyId>): seq<StudyId> {
    SortedUnique(Common(labelIds, inputIds))
  }

  /** The feature ids are sorted (hence duplicate-free, see
      StrictlySortedDistinct) and exactly the label-selected ids that are
      also valid input ids. */
  lemma FeatureIdsSorted(labelIds: seq<StudyId>, inputIds: seq<StudyId>)
    ensures StrictlySorted(FeatureIds(labelIds, inputIds))
    ensures forall y :: y in FeatureIds(labelIds, inputIds) <==> y in labelIds && y in inputIds
  {
    CommonMembers(labelIds, inputIds);
    SortedUniqueSorted(Common(labelIds, inputIds));
  }

  /** The feature ids have no repeated id, and they are the only strictly
      sorted list of the label-selected valid ids. */
  lemma FeatureIdsCanonical(labelIds: seq<StudyId>, inputIds: seq<StudyId>, ids: seq<StudyId>)
    ensures var r := FeatureIds(labelIds, inputIds);
            forall i, j :: 0 <= i < j < |r| ==> r[i] != r[j]
    ensures StrictlySorted(ids) && (forall y :: y in ids <==> y in labelIds && y in inputIds) ==>
              ids == FeatureIds(labelIds, inputIds)
  {
    var r := FeatureIds(labelIds, inputIds);
    FeatureIdsSorted(labelIds, inputIds);
    StrictlySortedDistinct(r);
    if StrictlySorted(ids) && (forall y :: y in ids <==> y in labelIds && y in inputIds) {
      StrictlySortedUnique(ids, r);
    }
  }

  /** `nonfeature_ids = sorted(list(set(input_ids) - set(feature_ids)))`. */
  function NonfeatureIds(inputIds: seq<StudyId>, featureIds: seq<StudyId>): seq<StudyId> {
    SortedUnique(Without(inputIds, featureIds))
  }

  /** The nonfeature ids are sorted and exactly the valid input ids that are
      not feature ids. */
  lemma NonfeatureIdsSorted(inputIds: seq<StudyId>, featureIds: seq<StudyId>)
    ensures StrictlySorted(NonfeatureIds(inputIds, featureIds))
    ensures forall y :: y in NonfeatureIds(inputIds, featureIds) <==> y in inputIds && y !in featureIds
  {
    WithoutMembers(inputIds, featureIds);
    SortedUniqueSorted(Without(inputIds, featureIds));
  }

  /** For a pairwise estimator the feature ids and their complement split
      the valid input ids: disjoint, both sorted, and together exactly the
      input ids. */
  lemma PairwiseSplit(labelIds: seq<StudyId>, inputIds: seq<StudyId>)
    ensures var f := FeatureIds(labelIds, inputIds);
            var n := NonfeatureIds(inputIds, f);
            && StrictlySorted(f) && StrictlySorted(n)
            && (forall y :: !(y in f && y in n))
            && (forall y :: y in f || y in n <==> y in inputIds)
  {
    var f := FeatureIds(labelIds, inputIds);
    FeatureIdsSorted(labelIds, inputIds);
    NonfeatureIdsSorted(inputIds, f);
  }
}

=== FILE: vocabulary.dfy ===
/**
  Text handling in front of the encoder: joining a list of strings,
  Python's `str.split(" ")`, the surface form of an underscore-joined
  vocabulary term, and the longest n-gram length of a vocabulary.
*/
module Vocabulary {
  import opened Wrappers

  /** The encoder's text argument: one string, or a list of strings. */
  datatype TextInput = Plain(text: string) | Pieces(parts: seq<string>)

  /** Number of occurrences of c in s. */
  function Count(s: string, c: char): nat {
    if |s| == 0 then 0 else Count(s[..|s| - 1], c) + (if s[|s| - 1] == c then 1 else 0)
  }

  /** `" ".join(parts)`. */
  function Join(parts: seq<string>): string {
    if |parts| == 0 then ""
    else if |parts| == 1 then parts[0]
    else parts[0] + " " + Join(parts[1..])
  }

  /** `text = " ".join(text)` when text is a list, else text unchanged.
      Splitting the joined text gives the pieces of every element in turn,
      and by JoinSplit joining those pieces gives the text back, so this
      determines the text for every list; words that hold no space come
      back as they are. */
  function JoinText(t: TextInput): (s: string)
    ensures t.Plain? ==> s == t.text
    ensures t.Pieces? && |t.parts| == 0 ==> s == ""
    ensures t.Pieces? && |t.parts| == 1 ==> s == t.parts[0]
    ensures t.Pieces? && |t.parts| > 0 ==> Split(s) == Flatten(SplitEach(t.parts))
    ensures (t.Pieces? && |t.parts| > 0 && forall i :: 0 <= i < |t.parts| ==> ' ' !in t.parts[i]) ==>
              Split(s) == t.parts
  {
    match t
    case Plain(s) => s
    case Pieces(parts) =>
      if |parts| > 0 then
        SplitJoinAll(parts);
        SplitJoin(parts);
        Join(parts)
      else Join(parts)
  }

  /** The pieces of several splits, one after the other. */
  function Flatten(pss: seq<seq<string>>): (r: seq<string>)
  {
    if |pss| == 0 then [] else pss[0] + Flatten(pss[1..])
  }

  /** `[p.split(" ") for p in parts]`. */
  function SplitEach(parts: seq<string>): (r: seq<seq<string>>)
    ensures |r| == |parts|
    ensures forall i :: 0 <= i < |parts| ==> r[i] == Split(parts[i])
  {
    seq(|parts|, i requires 0 <= i < |parts| => Split(parts[i]))
  }

  /** `s.split(" ")`: cut at every single space, keeping empty pieces;
      the empty string gives one empty piece. */
  function Split(s: string): (pieces: seq<string>)
    ensures |pieces| >= 1
  {
    if |s| == 0 then [""]
    else if s[0] == ' ' then [""] + Split(s[1..])
    else
      var rest := Split(s[1..]);
      [[s[0]] + rest[0]] + rest[1..]
  }

  /** Joining the pieces of a split gives back the string. */
  lemma {:induction false} JoinSplit(s: string)
    ensures Join(Split(s)) == s
  {
    if |s| > 0 {
      var rest := Split(s[1..]);
      JoinSplit(s[1..]);
      if s[0] == ' ' {
        assert Split(s) == [""] + rest;
        assert (Split(s))[1..] == rest;
      } else {
        var p := Split(s);
        assert p[1..] == rest[1..];
        if |rest| > 1 {
          assert Join(rest) == rest[0] + " " + Join(rest[1..]);
          assert Join(p) == ([s[0]] + rest[0]) + " " + Join(rest[1..]);
        }
        assert s == [s[0]] + s[1..];
      }
    }
  }

  /** Splitting a word without spaces followed by more text extends the
      first piece of the text's split by that word. */
  lemma {:induction false} SplitPrefix(w: string, t: string)
    requires ' ' !in w
    ensures Split(w + t) == [w + Split(t)[0]] + Split(t)[1..]
  {
    if |w| > 0 {
      SplitPrefix(w[1..], t);
      assert (w + t)[1..] == w[1..] + t;
      assert (w + t)[0] == w[0];
      assert [w[0]] + (w[1..] + Split(t)[0]) == w + Split(t)[0];
    } else {
      var p := Split(t);
      assert w + t == t && w + p[0] == p[0];
      assert p == [p[0]] + p[1..];
    }
  }

  /** Splitting a join of space-free words gives back the words. */
  lemma {:induction false} SplitJoin(parts: seq<string>)
    ensures (|parts| > 0 && forall i :: 0 <= i < |parts| ==> ' ' !in parts[i]) ==>
              Split(Join(parts)) == parts
  {
    if !(forall i :: 0 <= i < |parts| ==> ' ' !in parts[i]) {
    } else if |parts| == 1 {
      SplitPrefix(parts[0], "");
      assert parts[0] + "" == parts[0];
    } else if |parts| > 1 {
      var tail := Join(parts[1..]);
      SplitJoin(parts[1..]);
      SplitPrefix(parts[0], " " + tail);
      assert (" " + tail)[1..] == tail;
      assert Split(" " + tail) == [""] + parts[1..];
      assert parts[0] + " " + tail == parts[0] + (" " + tail);
      assert parts[0] + "" == parts[0];
      assert parts == [parts[0]] + parts[1..];
    }
  }

  /** The pieces of `[c] + t` from the pieces of t: a space starts a new
      empty piece, any other character joins the first piece. */
  function ConsPiece(c: char, pieces: seq<string>): seq<string>
    requires |pieces| >= 1
  {
    if c == ' ' then [""] + pieces else [[c] + pieces[0]] + pieces[1..]
  }

  /** Split of a string by its first character. */
  lemma SplitCons(c: char, t: string)
    ensures Split([c] + t) == ConsPiece(c, Split(t))
  {
    assert ([c] + t)[0] == c && ([c] + t)[1..] == t;
  }

  /** ConsPiece only touches the first piece. */
  lemma ConsPieceAppend(c: char, pa: seq<string>, pb: seq<string>)
    requires |pa| >= 1
    ensures ConsPiece(c, pa + pb) == ConsPiece(c, pa) + pb
  {
    assert (pa + pb)[0] == pa[0];
    assert (pa + pb)[1..] == pa[1..] + pb;
  }

  /** Cutting at a space between two strings splits each of them. */
  lemma {:induction false} SplitSpace(a: string, b: string)
    ensures Split(a + " " + b) == Split(a) + Split(b)
  {
    if |a| == 0 {
      assert a + " " + b == [' '] + b;
      SplitCons(' ', b);
    } else {
      var c, a' := a[0], a[1..];
      var t := a' + " " + b;
      SplitSpace(a', b);
      SplitCons(c, t);
      SplitCons(c, a');
      ConsPieceAppend(c, Split(a'), Split(b));
      assert a == [c] + a';
      assert a + " " + b == [c] + t;
    }
  }

  /** Splitting `" ".join(parts)` gives the split of every part, in order. */
  lemma {:induction false} SplitJoinAll(parts: seq<string>)
    requires |parts| > 0
    ensures Split(Join(parts)) == Flatten(SplitEach(parts))
  {
    var each := SplitEach(parts);
    if |parts| == 1 {
      assert Flatten(each) == each[0] + Flatten(each[1..]);
      assert Flatten(each[1..]) == [];
    } else {
      SplitJoinAll(parts[1..]);
      SplitSpace(parts[0], Join(parts[1..]));
      assert each[1..] == SplitEach(parts[1..]);
    }
  }

  /** A split has one more piece than the string has spaces. */
  lemma {:induction false} SplitLength(s: string)
    ensures |Split(s)| == Count(s, ' ') + 1
  {
    if |s| > 0 {
      SplitLength(s[1..]);
      CountFront(s, ' ');
    }
  }

  lemma {:induction false} CountFront(s: string, c: char)
    requires |s| > 0
    ensures Count(s, c) == Count(s[1..], c) + (if s[0] == c then 1 else 0)
  {
    if |s| > 1 {
      CountFront(s[..|s| - 1], c);
      assert s[..|s| - 1][1..] == s[1..][..|s[1..]| - 1];
    }
  }

  /** `term.replace("_", " ")`. */
  function SurfaceForm(term: string): (r: string)
    ensures |r| == |term|
    ensures forall i :: 0 <= i < |r| ==> r[i] == (if term[i] == '_' then ' ' else term[i])
  {
    if |term| == 0 then ""
    else SurfaceForm(term[..|term| - 1]) + [if term[|term| - 1] == '_' then ' ' else term[|term| - 1]]
  }

  /** `[term.replace("_", " ") for term in vocabulary]`: same length and order. */
  function SurfaceVocabulary(vocabulary: seq<string>): (r: seq<string>)
    ensures |r| == |vocabulary|
    ensures forall i :: 0 <= i < |r| ==> r[i] == SurfaceForm(vocabulary[i])
  {
    seq(|vocabulary|, i requires 0 <= i < |vocabulary| => SurfaceForm(vocabulary[i]))
  }

  /** `len(term.split(" "))` of a surface form: one more than the number of
      underscores and spaces in the underscore-joined term. */
  function TermLength(surface: string): (n: nat)
    ensures n >= 1
  {
    |Split(surface)|
  }

  lemma {:induction false} SurfaceSpaces(term: string)
    ensures Count(SurfaceForm(term), ' ') == Count(term, '_') + Count(term, ' ')
  {
    if |term| > 0 {
      var n := |term| - 1;
      SurfaceSpaces(term[..n]);
      assert SurfaceForm(term)[..n] == SurfaceForm(term[..n]);
    }
  }

  /** The n-gram length of a vocabulary term counts its underscore-joined words. */
  lemma TermLengthOfSurface(term: string)
    ensures TermLength(SurfaceForm(term)) == Count(term, '_') + Count(term, ' ') + 1
  {
    SplitLength(SurfaceForm(term));
    SurfaceSpaces(term);
  }

  /** `max(lengths)`; Python's max raises on an empty list. */
  function MaxOf(lengths: seq<nat>): (r: Option<nat>)
    ensures |lengths| == 0 <==> r.None?
    ensures r.Some? ==> r.value in lengths && forall i :: 0 <= i < |lengths| ==> lengths[i] <= r.value
  {
    if |lengths| == 0 then None
    else match MaxOf(lengths[..|lengths| - 1])
      case None => Some(lengths[|lengths| - 1])
      case Some(m) =>
        var last := lengths[|lengths| - 1];
        Some(if last > m then last else m)
  }

  /** `max([len(term.split(" ")) for term in vocabulary])` over the surface
      vocabulary: fails on an empty vocabulary, is at least 1 otherwise,
      bounds every term's length and is attained by one term. */
  function MaxLen(surface: seq<string>): (r: Option<nat>)
    ensures |surface| == 0 <==> r.None?
    ensures r.Some? ==> r.value >= 1
    ensures r.Some? ==> forall i :: 0 <= i < |surface| ==> TermLength(surface[i]) <= r.value
    ensures r.Some? ==> exists i :: 0 <= i < |surface| && TermLength(surface[i]) == r.value
  {
    var lengths := seq(|surface|, i requires 0 <= i < |surface| => TermLength(surface[i]));
    var m := MaxOf(lengths);
    assert forall i :: 0 <= i < |surface| ==> lengths[i] == TermLength(surface[i]);
    if m.Some? then
      assert m.value >= 1 by {
        assert lengths[0] >= 1;
      }
      m
    else m
  }
}

=== FILE: wrappers.dfy ===
/** Failure-carrying results shared by the decoding and encoding modules. */
module Wrappers {

  datatype Option<+T> = None | Some(value: T)

  datatype Result<+T, +E> = Ok(value: T) | Err(error: E)
}
